=== FILE: README.md ===
# digest: the pocketmod page layout and the pure parts of pylast

`digest.py` prints a daily digest as a *pocketmod*: one landscape A4 sheet
cut into a 4 x 2 grid of frames, folded into an eight-page booklet. The
script sizes the frames, builds them row by row and names each `"x-y"`. It
then fills them from a fixed table of page labels and draws each frame
between `saveState` and `restoreState`. The top row is drawn turned half a
turn, so that it reads the right way up once folded. The digest's one
dynamic page, page 2, holds Last.fm event recommendations: a map with
numbered markers, then one listing per event. Events whose fetch raised
`ServiceException` are skipped; any other exception ends the run before
anything is drawn.

`lib/pylast.py` is a Last.fm client. Around its HTTP calls sit a few pieces of
pure logic:

- how a request is assembled and signed;
- how many XML values `_extract_all` keeps;
- which tags `setTags` removes and adds;
- how `share` splits recipients into batches of at most ten;
- how `Event.toStr` writes an artist list;
- how the user's gender and subscriber codes are read.

The project models both in Dafny, one module per concern:

| file | module | models |
|---|---|---|
| base.dfy | `Base` | `Option` and `Result` |
| text.dfy | `Text` | `"%d"`, `str.join`, `str.split`, ASCII `lower()`, string order of `list.sort()` |
| layout.dfy | `Layout` | `calculate_frame_dimensions`, `setup_frames`, the grid constants |
| canvas.dfy | `Canvas` | the transformation matrix, state stack and drawing log of a reportlab canvas |
| content.dfy | `Content` | `format_event_recommendations`, the table of `fetch_frame_content` |
| digest.dfy | `Digest` | `draw_frames`, the row translation of `main` |
| request.dfy | `Request` | `_Request.__init__`, `signIt`, `_getSignature` |
| extract.dfy | `Extract` | `_BaseObject._extract_all` |
| tags.dfy | `Tags` | the diff in `_Taggable.setTags` |
| share.dfy | `Share` | the batching and parameters of `share` |
| eventstr.dfy | `EventString` | `Event.toStr` |
| user.dfy | `UserInfo` | `getGender`, `isSubscriber` |

Page coordinates are exact reals. A frame's offset `x * frame_width` is
written as `x` frame widths laid end to end (`Layout.Scale`), which is equal
to the product and keeps the layout proofs within linear arithmetic. The page is A4 landscape, 297 mm x 210 mm
at 72 points per inch: `106920/127` by `75600/127` points. reportlab's y axis
points up, so the margin the code calls `top` is the space below the bottom
row.

The three `share` methods of `Track`, `Artist` and `Event` hold the same
loop. They are at lib/pylast.py lines 862-865, 1135-1138 and 1370-1373, and
are modelled once. `Track`'s copy is the one cited below.

## Model

| member | source | states |
|---|---|---|
| Layout.FrameDimensions | digest.py:36-42 | `columns` frame widths plus the left and right margins make the page width; likewise `rows` frame heights plus the top and bottom margins make the page height |
| Layout.NoMarginsDividePage | digest.py:27-42 | with all margins zero, `X_FRAMES * frame_width == WIDTH` and `Y_FRAMES * frame_height == HEIGHT` |
| Layout.FrameId | digest.py:54 | the id `"%d-%d" % (x, y)` reads back as `(x, y)` |
| Layout.MakeFrame | digest.py:50-60 | a frame is `frame_width` by `frame_height`, has id `"x-y"` and the same padding on all four sides |
| Layout.MakeFrameCorner | digest.py:51-52 | frame `(x, y)` has its corner at `(x * frame_width + left, y * frame_height + top)` |
| Layout.FrameIdInjective | digest.py:54 | two cells have the same id exactly when they are the same cell |
| Layout.ScaleIsProduct | digest.py:51-52 | the frame offsets, written as `x` frame widths laid end to end, equal the products `x * frame_width` of the source |
| Layout.SetupFrames | digest.py:44-64 | there are `rows * columns` frames; frame `y * columns + x` (`CellIndex`) is the frame built for cell `(x, y)`: `y` in the outer loop, `x` in the inner one |
| Layout.FrameAtIndex | digest.py:61-62 | with `y` in the outer loop and `x` in the inner one, frame `k` is cell `(k % columns, k / columns)` |
| Layout.FrameIdsDistinct | digest.py:49-63 | no two frames share an id |
| Layout.ColumnsAdjoin | digest.py:50-53 | frame `(x+1, y)` starts where frame `(x, y)` ends, on the same baseline |
| Layout.RowsAdjoin | digest.py:50-53 | frame `(x, y+1)` starts where frame `(x, y)` ends vertically, in the same column |
| Layout.FramesTilePage | digest.py:36-64 | a point inside the margins lies in exactly one frame; a point outside them lies in none |
| Canvas.ConcatApplies | digest.py:212-216 | `transform` composes so that the newest transformation acts on a point first |
| Canvas.Rotation | digest.py:216 | `rotate` by a whole number of quarter turns turns points counter-clockwise about the origin |
| Canvas.RotationsAdd | digest.py:216 | two rotations compose to one by the sum of the angles |
| Canvas.SaveState | digest.py:209 | `saveState` pushes the current matrix and changes neither the matrix nor the drawing |
| Canvas.Translate | digest.py:212-215 | after `translate(dx, dy)` a point is shifted by `(dx, dy)` before the earlier matrix applies |
| Canvas.Rotate | digest.py:216 | after `rotate` a point is turned about the origin before the earlier matrix applies |
| Canvas.Draw | digest.py:219 | `addFromList` adds one placement, under the current matrix, after everything drawn before |
| Canvas.RestoreState | digest.py:209-220 | `restoreState` pops the matrix saved last and keeps what was drawn; it fails on an empty stack |
| Canvas.RestoreUndoesSave | digest.py:209-220 | `restoreState` after `saveState` gives back the matrix and stack from before the save, whatever was done in between |
| Content.FormatEventRecommendations | digest.py:90-122 | it fails exactly when some event raised something other than `ServiceException`, and then at the first such event; otherwise events that raised `ServiceException` are skipped, there are as many listings as markers, one per fetched event in order, and marker `j` is numbered `j + 1` and carries `"lat,long"` |
| Content.FormatAsShipped | digest.py:96-121 | with `startDate` kept as text, it fails exactly when some event's fetch did not raise `ServiceException`; when it succeeds there are no listings and no markers |
| Content.FetchedMembers | digest.py:96-121 | an event's info is listed exactly when fetching it did not raise |
| Content.ListingOf | digest.py:105-111 | a listing shows the event's title, its artists joined by `", "`, and its venue; a missing postcode is shown as `""` |
| Content.EventColumn | digest.py:153-154 | the event page is the map paragraph, then the spacer, then the listings |
| Content.FrameContent | digest.py:178-182 | page 2 is the `'top'` frame `1-1` and holds the event column |
| Content.FrameContentPages | digest.py:157-198 | every row is `'top'` or `'bottom'`; the `'top'` row holds exactly pages 1 to 4; no page appears twice; every frame but `1-1` holds just its page label |
| Content.FrameContentCoversGrid | digest.py:157-198 | the table's ids are exactly the eight ids of the 4 x 2 grid; cell `(x, y)` is `'top'` exactly when `y == 1` and `'bottom'` exactly when `y == 0`; the event page is cell `1-1` |
| Digest.DrawFrame | digest.py:203-220 | a frame without an entry draws nothing; any other frame draws once, under the matrix turned for `'top'` and untouched otherwise; matrix and saved stack end as they began |
| Digest.SlotMatrix | digest.py:209-216 | a top-row point is turned, then shifted, then mapped by the matrix in force; any other row keeps the matrix |
| Digest.MainRowTranslation | digest.py:234-238 | the top-row translation is half a turn, and it sends a point `(x, y)` to `(tx - x, ty - y)` |
| Digest.DrawFrames | digest.py:201-220 | one placement per frame that has an entry, in frame order, each under its row's matrix; the matrix and stack are as before |
| Digest.TopRowMirrored | digest.py:234-238 | with frames filling the page, content drawn for cell `(x, y)` lands in cell `(columns-1-x, rows-y)` for any margins |
| Digest.DigestTopRowMirrored | digest.py:234-238 | on the digest page the top row is printed upside down in place, columns reversed |
| Digest.DrawnAll | digest.py:201-220 | when every frame has an entry, a fresh canvas gets exactly one placement per frame, in frame order, and ends with the identity matrix and nothing saved |
| Digest.DigestFrameRows | digest.py:157-198 | on the digest page all eight frames have an entry; frames 0-3 are the `'bottom'` row, frames 4-7 the `'top'` one, and frame 5 is `1-1` |
| Digest.DigestDrawing | digest.py:229-258 | `main` draws all eight frames in order; frames 0-3 under the page matrix, frames 4-7 turned; the event page is frame `1-1`; the canvas ends with identity matrix and empty stack |
| Request.Set | lib/pylast.py:178-179 | `d[k] = v` maps `k` to `v`; each key is still listed once |
| Request.Sort | lib/pylast.py:193-195 | `keys.sort()` returns the keys in ascending order, none lost or added |
| Request.SortedUnique | lib/pylast.py:193-195 | two ascending arrangements of the same keys are the same list |
| Request.SignaturePreimage | lib/pylast.py:190-205 | the signed string ends with the secret; with no parameters it is the secret alone |
| Request.PreimageInKeyOrder | lib/pylast.py:190-205 | the signed string is `name + value` for every parameter in ascending key order, each once, then the secret |
| Request.PreimageOrderFree | lib/pylast.py:190-205 | the signed string does not depend on the order `keys()` lists the parameters in |
| Request.Md5 | lib/pylast.py:90-94 | `md5` re-encodes bytes that are already UTF-8, so it fails exactly when the pre-image has a character from U+0080 up, and otherwise hashes the pre-image as is; `_getSignature` passes it the already encoded pre-image (lib/pylast.py:205) |
| Request.AsciiPreimage | lib/pylast.py:190-205 | the pre-image is ASCII exactly when the secret and every parameter name and value are |
| Request.SignIt | lib/pylast.py:184-205 | an existing `api_sig` is kept as is; otherwise `api_sig` becomes the hash of the pre-image; it fails without a secret, and with a secret exactly when the pre-image is not ASCII |
| Request.AccentedValueFails | lib/pylast.py:190-205 | signing a request whose `tags` value is `"électro"` fails, even with a secret |
| Request.SignItIdempotent | lib/pylast.py:184-188 | signing a signed request changes nothing |
| Request.NewRequest | lib/pylast.py:173-182 | `api_key` and `method` are set, overwriting any earlier value; other parameters, a caller's `api_sig` included, are kept unchanged; `api_sig` is present exactly when it already was or the session key is truthy; it fails exactly when it has to sign and there is no secret or the pre-image is not ASCII |
| Request.SignatureCoversKeyAndMethod | lib/pylast.py:173-205 | a fresh signature succeeds exactly when the pre-image is ASCII, and then covers `api_key` and `method` too |
| Extract.ExtractAll | lib/pylast.py:345-356 | the first `min(n, limit)` values in document order; all of them for no limit or a negative one; none for 0 |
| Tags.TagDiff | lib/pylast.py:458-484 | `to_remove` is the old tags whose lower-case form is not among the new ones, `to_add` the reverse, both in original order and spelling |
| Tags.SetTags | lib/pylast.py:453-487 | the `tags_on_server == None` guard gives no diff (`getTags` always returns a list, so it is never taken); for any server list, an empty one included, the two diff lists |
| Tags.EmptyServerAddsAll | lib/pylast.py:473-484 | with no tags on the server every requested tag is added, in order, and nothing is removed |
| Tags.AbsentMembers | lib/pylast.py:473-484 | a tag is in a diff list exactly when its side has it and the other side has no tag equal to it ignoring case |
| Tags.SharedTagUntouched | lib/pylast.py:473-484 | a tag both sides have, ignoring case, is neither removed nor added |
| Tags.ResetIsEmpty | lib/pylast.py:473-484 | setting the tags already on the server, in any spelling of case, removes and adds nothing |
| Tags.EmptyDiffIffSameTags | lib/pylast.py:473-484 | both lists are empty exactly when the two sides hold the same tags ignoring case |
| Share.Batches | lib/pylast.py:862-865 | the batches together are the recipients in order; every batch but the last has 9, the last at most 10 and, when it follows others, at least 2; none is empty unless there are no recipients; there is one batch exactly when there are at most 10 recipients |
| Share.RecipientsRoundTrip | lib/pylast.py:867-875 | splitting the `recipient` parameter at commas gives back each name, `User` objects by name, when no name contains a comma |
| Share.ShareParams | lib/pylast.py:874-877 | a share call sends the object's parameters, the recipients and, when truthy, the message; a `message` key the object did not have appears only for a truthy message |
| EventString.JoinArtists | lib/pylast.py:1392-1404 | the loop writes `""`, `A`, `A and B`, or `A, B, ... and Z` |
| EventString.ToStr | lib/pylast.py:1389-1406 | the string is `title: artists at venue` |
| EventString.ArtistPhraseCases | lib/pylast.py:1392-1404 | the phrase for none, one, two and three artists |
| EventString.ArtistPhraseSnoc | lib/pylast.py:1392-1404 | for two or more artists the phrase is the others joined by `", "`, then `" and "` and the last; adding an artist turns that `" and "` into `", "` and puts `" and "` before the new last name |
| UserInfo.Gender | lib/pylast.py:2642-2651 | `'m'` gives `'Male'`, `'f'` gives `'Female'`, anything else `None` |
| UserInfo.GenderRoundTrip | lib/pylast.py:2642-2651 | a gender is reported exactly for its code |
| UserInfo.Subscriber | lib/pylast.py:2653-2663 | `'1'` gives `True`, `'0'` gives `False`, anything else `None` |
| UserInfo.SubscriberRoundTrip | lib/pylast.py:2653-2663 | a subscriber flag is reported exactly for its code |

## Left out

- Network, XML, proxies and threading are left out: `_Request.execute`, `minidom`, `_Asynchronizer`, `_ThreadedFunct`. The values they return are inputs, for example the element texts given to `ExtractAll` or the fetch outcomes given to `FormatEventRecommendations`.
- The MD5 digest itself, `hashlib.md5(...).hexdigest()`, is not modelled: it is a foreign library call, passed in as the `hash` parameter. pylast's `md5` wrapper around it is modelled as `Request.Md5`, with its failure on non-ASCII text. URL quoting is left out.
- Dates are not modelled: `strptime`, `strftime` and the listing's time are locale- and clock-dependent library calls. What the listing would show for a parsed date is left out; the failure of `strftime` on the text date is modelled (see Findings).
- The `print` calls in `format_event_recommendations` and `draw_frames` (digest.py:99, 218) are console output and are not modelled. A failure to print would be an exception other than `ServiceException`, which the model covers as `Raised`.
- `showBoundary=1` (digest.py:55) only asks reportlab to outline each frame; it does not change the layout and is not modelled.
- The listing's image (`info['images'][IMAGE_SMALL]`) and its size are not modelled; a missing image is an exception other than `ServiceException`, covered by `Raised`.
- reportlab's own code is not modelled: `Paragraph`, `Spacer`, stylesheets, PDF output. `Frame.addFromList` is a placement in the canvas log.
- The canvas state is only its matrix: `saveState` also saves fonts and colours, which `draw_frames` never changes.
- The Google Maps URL and the `int()` truncation of the map size are not modelled. `subprocess.call(["open", ...])` is left out too.
- Floating point is not modelled. Page sizes, the row translation and the rotation are exact reals.
- Canvas.Rotation: only whole quarter turns are modelled, because their cosine and sine are exact. `draw_frames` only ever turns 180 degrees. reportlab's float `sin(pi)` is about `1.2e-16`, not 0.
- Canvas.Rotate and Digest.DrawFrame require the row translation to be a multiple of 90 degrees, for the same reason. This is a limit of the model, not a demand of the source.
- Text.Lower and Tags.TagDiff fold case for ASCII letters only; Python's `unicode.lower()` covers all of Unicode.
- `row is 'top'` compares identity; it is modelled as string equality. CPython interns the literal, so the two agree.
- `.encode('utf-8')` in `Event.toStr` is not modelled; strings are sequences of characters. In `_getSignature` only its consequence is modelled: an ASCII string is its own encoding, and `Request.Md5` rejects any other.
- `_extract`'s `strip()` of each text is not modelled; the texts arrive already extracted.
- Python 2 leaves the order of `dict.keys()` open. `Request.Dict` lists keys in insertion order, and `Request.PreimageOrderFree` shows the signature does not depend on that order.
- `Request.NewRequest` returns a new request; the source writes into the caller's `params` dict in place.
- digestfetch.py and settings.example.py are not part of this model: one is fetch glue, the other credentials.

## Findings

| source | as written | input that shows it | evidently intended | confidence | as-written member | corrected member |
|---|---|---|---|---|---|---|
| digest.py:113-114 | `info['startDate'].strftime(...)` is called on the value `_getInfo` stores, which is the element's text or `None` (lib/pylast.py:1223, 334-343); neither has `strftime`, so `AttributeError` escapes the `except pylast.ServiceException` | any event list with one event whose info is fetched, for example `[Info(e)]` | parse the date first, as `Event.getStartDate` does (lib/pylast.py:1246-1254), so that fetched events are listed and only `ServiceException` is skipped | high; not executed | Content.FormatAsShipped | Content.FormatEventRecommendations |

=== FILE: base.dfy ===
/** Small failure-carrying datatypes shared by every module of the model. */
module Base {

  /** Python's `None`-or-value: the absent case of a lookup, an XML node
      without text, a limit that was not given. */
  datatype Option<+T> = None | Some(value: T)

  /** The result of an operation that may raise. */
  datatype Result<+T, +E> = Ok(value: T) | Err(error: E)
}

=== FILE: canvas.dfy ===
/** The part of a reportlab canvas that `draw_frames` relies on: the current
    transformation matrix, the stack that `saveState`/`restoreState` push and
    pop, and a log of what was drawn under which matrix. */
module Canvas {
  import opened Base

  datatype Point = Point(x: real, y: real)

  /** A transformation matrix `(a, b, c, d, e, f)` as reportlab keeps it: the
      user-space point `(x, y)` lands on the page at
      `(a*x + c*y + e, b*x + d*y + f)`. */
  datatype Affine = Affine(a: real, b: real, c: real, d: real, e: real, f: real)

  const Identity: Affine := Affine(1.0, 0.0, 0.0, 1.0, 0.0, 0.0)

  function Apply(m: Affine, p: Point): Point {
    Point(m.a * p.x + m.c * p.y + m.e, m.b * p.x + m.d * p.y + m.f)
  }

  lemma IdentityFixes(p: Point)
    ensures Apply(Identity, p) == p
  {
  }

  /** `Canvas.transform`: the current matrix `m` times the new one `n`. */
  function Concat(m: Affine, n: Affine): Affine {
    Affine(m.a * n.a + m.c * n.b, m.b * n.a + m.d * n.b,
           m.a * n.c + m.c * n.d, m.b * n.c + m.d * n.d,
           m.a * n.e + m.c * n.f + m.e, m.b * n.e + m.d * n.f + m.f)
  }

  /** The new transformation acts on a point first, the current one after it. */
  lemma ConcatApplies(m: Affine, n: Affine, p: Point)
    ensures Apply(Concat(m, n), p) == Apply(m, Apply(n, p))
  {
    var q := Apply(n, p);
    var r := Concat(m, n);
    ComposeRow(m.a, m.c, m.e, n.a, n.b, n.c, n.d, n.e, n.f, p.x, p.y);
    ComposeRow(m.b, m.d, m.f, n.a, n.b, n.c, n.d, n.e, n.f, p.x, p.y);
    assert Apply(r, p).x == Apply(m, q).x;
    assert Apply(r, p).y == Apply(m, q).y;
  }

  /** One coordinate of a composed transformation. */
  lemma ComposeRow(u: real, v: real, w: real, a: real, b: real, c: real, d: real, e: real, f: real,
                   x: real, y: real)
    ensures (u * a + v * b) * x + (u * c + v * d) * y + (u * e + v * f + w)
            == u * (a * x + c * y + e) + v * (b * x + d * y + f) + w
  {
  }

  /** `translate(dx, dy)` is `transform(1, 0, 0, 1, dx, dy)`. */
  function Translation(dx: real, dy: real): (m: Affine)
    ensures forall p :: Apply(m, p) == Point(p.x + dx, p.y + dy)
  {
    Affine(1.0, 0.0, 0.0, 1.0, dx, dy)
  }

  /** A point turned counter-clockwise about the origin by `q` quarter turns. */
  function Turn(q: nat, p: Point): Point
    requires q < 4
  {
    if q == 0 then p
    else if q == 1 then Point(-p.y, p.x)
    else if q == 2 then Point(-p.x, -p.y)
    else Point(p.y, -p.x)
  }

  /** `rotate(theta)` is `transform(c, s, -s, c, 0, 0)` with `c, s` the cosine
      and sine of `theta` degrees. Only whole quarter turns are modelled, where
      the cosine and sine are exact; `turns` counts them. */
  function Rotation(turns: int): (m: Affine)
    ensures forall p :: Apply(m, p) == Turn(turns % 4, p)
  {
    var q := turns % 4;
    if q == 0 then Affine(1.0, 0.0, 0.0, 1.0, 0.0, 0.0)
    else if q == 1 then Affine(0.0, 1.0, -1.0, 0.0, 0.0, 0.0)
    else if q == 2 then Affine(-1.0, 0.0, 0.0, -1.0, 0.0, 0.0)
    else Affine(0.0, -1.0, 1.0, 0.0, 0.0, 0.0)
  }

  lemma TurnsAdd(q: nat, q': nat, p: Point)
    requires q < 4 && q' < 4
    ensures Turn(q, Turn(q', p)) == Turn((q + q') % 4, p)
  {
  }

  lemma QuarterSum(i: int, j: int)
    ensures (i + j) % 4 == (i % 4 + j % 4) % 4
  {
    var qi, qj := i / 4, j / 4;
    assert i == 4 * qi + i % 4 && j == 4 * qj + j % 4;
    assert i + j == 4 * (qi + qj) + (i % 4 + j % 4);
  }

  /** Two matrices that act as quarter turns compose to their sum. */
  lemma ComposeTurns(m: Affine, n: Affine, qi: nat, qj: nat, p: Point)
    requires qi < 4 && qj < 4
    requires forall q :: Apply(m, q) == Turn(qi, q)
    requires forall q :: Apply(n, q) == Turn(qj, q)
    ensures Apply(Concat(m, n), p) == Turn((qi + qj) % 4, p)
  {
    ConcatApplies(m, n, p);
    TurnsAdd(qi, qj, p);
  }

  /** Turning by `j` and then by `i` quarter turns turns by `i + j`. */
  lemma RotationsAdd(i: int, j: int, p: Point)
    ensures Apply(Concat(Rotation(i), Rotation(j)), p) == Apply(Rotation(i + j), p)
  {
    ComposeTurns(Rotation(i), Rotation(j), i % 4, j % 4, p);
    QuarterSum(i, j);
  }

  /** Something drawn, and the matrix in force when it was drawn. */
  datatype Placement<T> = Placement(item: T, ctm: Affine)

  /** The canvas: the current matrix, the matrices `saveState` pushed (last
      one on top), and what has been drawn so far, oldest first. */
  datatype State<T> = State(ctm: Affine, saved: seq<Affine>, drawn: seq<Placement<T>>)

  /** A new canvas: identity matrix, empty stack, nothing drawn. */
  function Fresh<T>(): (s: State<T>)
    ensures s.saved == [] && s.drawn == []
    ensures forall p :: Apply(s.ctm, p) == p
  {
    State(Identity, [], [])
  }

  function SaveState<T>(s: State<T>): (r: State<T>)
    ensures |r.saved| == |s.saved| + 1 && r.saved[..|s.saved|] == s.saved
    ensures r.saved[|s.saved|] == s.ctm && r.ctm == s.ctm && r.drawn == s.drawn
  {
    s.(saved := s.saved + [s.ctm])
  }

  /** `restoreState` pops the matrix saved last; with nothing saved reportlab
      fails, which is `None` here. */
  function RestoreState<T>(s: State<T>): (r: Option<State<T>>)
    ensures r.None? <==> s.saved == []
    ensures r.Some? ==>
              && r.value.ctm == s.saved[|s.saved| - 1]
              && r.value.saved == s.saved[..|s.saved| - 1]
              && r.value.drawn == s.drawn
  {
    if s.saved == [] then None
    else Some(State(s.saved[|s.saved| - 1], s.saved[..|s.saved| - 1], s.drawn))
  }

  /** Restoring undoes a save, whatever happened to the matrix in between,
      and keeps what was drawn. */
  lemma RestoreUndoesSave<T>(s: State<T>, t: State<T>)
    requires t.saved == SaveState(s).saved
    ensures RestoreState(t) == Some(State(s.ctm, s.saved, t.drawn))
  {
    assert t.saved[..|t.saved| - 1] == s.saved;
  }

  function Translate<T>(s: State<T>, dx: real, dy: real): (r: State<T>)
    ensures r.saved == s.saved && r.drawn == s.drawn
    ensures forall p :: Apply(r.ctm, p) == Apply(s.ctm, Point(p.x + dx, p.y + dy))
  {
    forall p ensures Apply(Concat(s.ctm, Translation(dx, dy)), p) == Apply(s.ctm, Point(p.x + dx, p.y + dy)) {
      ConcatApplies(s.ctm, Translation(dx, dy), p);
    }
    s.(ctm := Concat(s.ctm, Translation(dx, dy)))
  }

  /** `rotate(degrees)`, for a whole number of quarter turns. */
  function Rotate<T>(s: State<T>, degrees: int): (r: State<T>)
    requires degrees % 90 == 0
    ensures r.saved == s.saved && r.drawn == s.drawn
    ensures forall p :: Apply(r.ctm, p) == Apply(s.ctm, Turn((degrees / 90) % 4, p))
  {
    forall p ensures Apply(Concat(s.ctm, Rotation(degrees / 90)), p)
                     == Apply(s.ctm, Turn((degrees / 90) % 4, p)) {
      ConcatApplies(s.ctm, Rotation(degrees / 90), p);
    }
    s.(ctm := Concat(s.ctm, Rotation(degrees / 90)))
  }

  /** Draws `item` under the current matrix. */
  function Draw<T>(s: State<T>, item: T): (r: State<T>)
    ensures r.ctm == s.ctm && r.saved == s.saved
    ensures |r.drawn| == |s.drawn| + 1 && r.drawn[..|s.drawn|] == s.drawn
    ensures r.drawn[|s.drawn|] == Placement(item, s.ctm)
  {
    s.(drawn := s.drawn + [Placement(item, s.ctm)])
  }
}

=== FILE: content.dfy ===
/** What goes into the frames of the digest (`fetch_frame_content` and
    `format_event_recommendations`): the event listing with its numbered map
    markers, and the fixed table from frame id to pocketmod page. */
module Content {
  import opened Base
  import opened Text
  import opened Layout

  /** The fields of `Event._getInfo()` the listing uses. The start date and
      the image are left out. */
  datatype EventInfo = EventInfo(
    title: string,
    artists: seq<string>,
    venue: string,
    postcode: Option<string>,
    lat: string,
    long: string)

  /** What the `try` body meets for one recommended event: the
      `ServiceException` that `_getInfo` raised, which is caught; the info,
      formatted without error; or any other exception (a missing key, an empty
      image list, a failed `print`), which is not caught. */
  datatype EventFetch = ServiceError | Info(info: EventInfo) | Raised

  /** A map marker: the running event number and `"lat,long"`. */
  datatype Marker = Marker(index: nat, latlong: string)

  /** The flowables placed in frames. A listing holds the parts of the event
      paragraph that come from the event (artists joined by `", "`, a missing
      postcode shown as `""`); the map holds its markers, whose URL is left out. */
  datatype Block =
    | Body(text: string)
    | Listing(title: string, artists: string, venue: string, postcode: string)
    | EventMap(markers: seq<Marker>)
    | MapSpacer

  /** A row of the content table: page label, `'top'` or `'bottom'`, flowables. */
  datatype Slot = Slot(page: string, row: string, content: seq<Block>)

  /** The listing paragraph built for one event. */
  function ListingOf(info: EventInfo): (b: Block)
    ensures b.Listing? && b.title == info.title && b.venue == info.venue
    ensures b.artists == Join(", ", info.artists)
    ensures b.postcode == (if info.postcode.Some? then info.postcode.value else "")
  {
    Listing(
      info.title,
      Join(", ", info.artists),
      info.venue,
      match info.postcode case Some(p) => p case None => "")
  }

  /** The events whose info could be fetched, in order. */
  function Fetched(events: seq<EventFetch>): (infos: seq<EventInfo>)
    ensures |infos| <= |events|
  {
    if events == [] then []
    else
      var rest := Fetched(events[..|events| - 1]);
      match events[|events| - 1]
      case Info(info) => rest + [info]
      case _ => rest
  }

  /** Every fetched event comes from the input, and every successful fetch is kept. */
  lemma {:induction false} FetchedMembers(events: seq<EventFetch>, info: EventInfo)
    ensures info in Fetched(events) <==> Info(info) in events
  {
    if events != [] {
      var init := events[..|events| - 1];
      FetchedMembers(init, info);
      assert events == init + [events[|events| - 1]];
    }
  }

  lemma FetchedOnlyFailures(events: seq<EventFetch>)
    requires forall i :: 0 <= i < |events| ==> !events[i].Info?
    ensures Fetched(events) == []
  {
    if Fetched(events) != [] {
      FetchedMembers(events, Fetched(events)[0]);
    }
  }

  /** The two lists `format_event_recommendations` returns. */
  datatype Recommendations = Recommendations(paragraphs: seq<Block>, latlongs: seq<Marker>)

  /** An exception that left the loop, and the position of the event it
      came from. Nothing is returned, and `main` stops before drawing. */
  datatype Escape = Escape(index: nat)

  /** `format_event_recommendations`: events whose fetch raised
      `ServiceException` are skipped; the others each give a listing and a
      marker numbered 1, 2, ... in order; the first other exception ends the
      loop and escapes. */
  method FormatEventRecommendations(events: seq<EventFetch>) returns (res: Result<Recommendations, Escape>)
    ensures res.Err? <==> exists i :: 0 <= i < |events| && events[i].Raised?
    ensures res.Err? ==>
              && res.error.index < |events| && events[res.error.index].Raised?
              && forall j :: 0 <= j < res.error.index ==> !events[j].Raised?
    ensures res.Ok? ==>
              var paragraphs, latlongs := res.value.paragraphs, res.value.latlongs;
              && |paragraphs| == |latlongs| == |Fetched(events)|
              && (forall j :: 0 <= j < |paragraphs| ==> paragraphs[j] == ListingOf(Fetched(events)[j]))
              && (forall j :: 0 <= j < |latlongs| ==>
                    latlongs[j] == Marker(j + 1, Fetched(events)[j].lat + "," + Fetched(events)[j].long))
  {
    var paragraphs, latlongs := [], [];
    var i := 0;
    var n := 0;
    while n < |events|
      invariant n <= |events|
      invariant forall j :: 0 <= j < n ==> !events[j].Raised?
      invariant i == |paragraphs| == |latlongs| == |Fetched(events[..n])|
      invariant forall j :: 0 <= j < i ==> paragraphs[j] == ListingOf(Fetched(events[..n])[j])
      invariant forall j :: 0 <= j < i ==>
                  latlongs[j] == Marker(j + 1, Fetched(events[..n])[j].lat + "," + Fetched(events[..n])[j].long)
    {
      if events[n].Raised? {
        return Err(Escape(n));
      }
      assert events[..n + 1][..n] == events[..n];
      if events[n].Info? {
        var info := events[n].info;
        i := i + 1;
        latlongs := latlongs + [Marker(i, info.lat + "," + info.long)];
        paragraphs := paragraphs + [ListingOf(info)];
      }
      n := n + 1;
    }
    assert events[..n] == events;
    res := Ok(Recommendations(paragraphs, latlongs));
  }

  /** What the loop body meets with this repository's pylast: `_getInfo`
      keeps `startDate` as the element's text, or `None` when it is missing
      (lib/pylast.py:1223, 334-343), and neither has a `strftime` method, so
      formatting any fetched event raises `AttributeError`. */
  function AsShipped(f: EventFetch): (g: EventFetch)
    ensures g.ServiceError? <==> f.ServiceError?
    ensures !g.Info?
  {
    if f.Info? then Raised else f
  }

  /** `format_event_recommendations` as it runs against this pylast: the
      first event whose info is fetched ends the loop with an exception, so
      the digest is drawn only when every fetch failed, and then without
      listings. */
  method FormatAsShipped(events: seq<EventFetch>) returns (res: Result<Recommendations, Escape>)
    ensures res.Err? <==> exists i :: 0 <= i < |events| && !events[i].ServiceError?
    ensures res.Ok? ==> res.value == Recommendations([], [])
  {
    var seen := seq(|events|, i requires 0 <= i < |events| => AsShipped(events[i]));
    res := FormatEventRecommendations(seen);
    if res.Ok? {
      FetchedOnlyFailures(seen);
    } else {
      var k := res.error.index;
      assert !events[k].ServiceError?;
    }
    if exists i :: 0 <= i < |events| && !events[i].ServiceError? {
      var i :| 0 <= i < |events| && !events[i].ServiceError?;
      assert seen[i].Raised?;
    }
  }

  /** The event page: the map paragraph, then its spacer, then the listings. */
  function EventColumn(paragraphs: seq<Block>, latlongs: seq<Marker>): (column: seq<Block>)
    ensures |column| == |paragraphs| + 2 && column[2..] == paragraphs
    ensures column[0] == EventMap(latlongs) && column[1] == MapSpacer
  {
    [EventMap(latlongs), MapSpacer] + paragraphs
  }

  /** `fetch_frame_content`'s table. Page labels follow the pocketmod fold:
      the bottom row holds pages 5, 6, back and front, the top row (drawn
      upside down) pages 1 to 4; the event column fills page 2. Every page
      appears once, and every page but page 2 holds just its own label. */
  function FrameContent(paragraphs: seq<Block>, latlongs: seq<Marker>): (table: map<string, Slot>)
    ensures "1-1" in table && table["1-1"].page == "2 right" && table["1-1"].row == "top"
    ensures table["1-1"].content == EventColumn(paragraphs, latlongs)
  {
    map[
      "1-0" := Slot("6 right", "bottom", [Body("6 right")]),
      "2-0" := Slot("Back", "bottom", [Body("Back")]),
      "3-0" := Slot("Front", "bottom", [Body("Front")]),
      "0-1" := Slot("1 left", "top", [Body("1 left")]),
      "1-1" := Slot("2 right", "top", EventColumn(paragraphs, latlongs)),
      "2-1" := Slot("3 left", "top", [Body("3 left")]),
      "3-1" := Slot("4 right", "top", [Body("4 right")]),
      "0-0" := Slot("5 left", "bottom", [Body("5 left")])
    ]
  }

  /** The labels of the pocketmod fold: pages 1 to 4 are upside down. */
  const TopPages: set<string> := {"1 left", "2 right", "3 left", "4 right"}

  /** The table's pages follow the fold: every row is `'top'` or `'bottom'`,
      the top row holds exactly pages 1 to 4, no page appears twice, and every
      frame but `1-1` holds just its own page label. */
  lemma FrameContentPages(paragraphs: seq<Block>, latlongs: seq<Marker>)
    ensures var table := FrameContent(paragraphs, latlongs);
            && (forall id :: id in table ==> table[id].row == "top" || table[id].row == "bottom")
            && (forall id :: id in table ==> (table[id].row == "top" <==> table[id].page in TopPages))
            && (forall a, b :: a in table && b in table && a != b ==> table[a].page != table[b].page)
            && (forall id :: id in table && id != "1-1" ==> table[id].content == [Body(table[id].page)])
  {
  }

  /** The ids of the 4 x 2 digest grid. */
  lemma GridIds()
    ensures FrameId(0, 0) == "0-0" && FrameId(1, 0) == "1-0"
    ensures FrameId(2, 0) == "2-0" && FrameId(3, 0) == "3-0"
    ensures FrameId(0, 1) == "0-1" && FrameId(1, 1) == "1-1"
    ensures FrameId(2, 1) == "2-1" && FrameId(3, 1) == "3-1"
  {
    assert Decimal(0) == "0" && Decimal(1) == "1" && Decimal(2) == "2" && Decimal(3) == "3";
  }

  /** Every id in the table names a cell of the 4 x 2 grid. */
  lemma TableIdsInGrid(paragraphs: seq<Block>, latlongs: seq<Marker>, id: string)
    requires id in FrameContent(paragraphs, latlongs)
    ensures exists x: nat, y: nat :: x < 4 && y < 2 && id == FrameId(x, y)
  {
    GridIds();
    if id == "0-0" { assert id == FrameId(0, 0); }
    else if id == "1-0" { assert id == FrameId(1, 0); }
    else if id == "2-0" { assert id == FrameId(2, 0); }
    else if id == "3-0" { assert id == FrameId(3, 0); }
    else if id == "0-1" { assert id == FrameId(0, 1); }
    else if id == "1-1" { assert id == FrameId(1, 1); }
    else if id == "2-1" { assert id == FrameId(2, 1); }
    else { assert id == FrameId(3, 1); }
  }

  /** Every cell of the 4 x 2 grid has an entry, in the top row exactly when
      `y == 1`. */
  lemma GridCellInTable(paragraphs: seq<Block>, latlongs: seq<Marker>, x: nat, y: nat)
    requires x < 4 && y < 2
    ensures var table := FrameContent(paragraphs, latlongs);
            && FrameId(x, y) in table
            && (table[FrameId(x, y)].row == "top" <==> y == 1)
            && (table[FrameId(x, y)].row == "bottom" <==> y == 0)
  {
    GridIds();
    var id := FrameId(x, y);
    if y == 0 {
      assert id == "0-0" || id == "1-0" || id == "2-0" || id == "3-0";
    } else {
      assert id == "0-1" || id == "1-1" || id == "2-1" || id == "3-1";
    }
  }

  /** The table has an entry for exactly the eight cells of the digest grid;
      the `row` of cell `(x, y)` is `'top'` when `y == 1` and `'bottom'` when
      `y == 0`; the event column fills cell `(1, 1)`. */
  lemma FrameContentCoversGrid(paragraphs: seq<Block>, latlongs: seq<Marker>)
    ensures var table := FrameContent(paragraphs, latlongs);
            && (forall id :: id in table <==> exists x: nat, y: nat :: x < 4 && y < 2 && id == FrameId(x, y))
            && (forall x: nat, y: nat :: x < 4 && y < 2 ==>
                  FrameId(x, y) in table
                  && (table[FrameId(x, y)].row == "top" <==> y == 1)
                  && (table[FrameId(x, y)].row == "bottom" <==> y == 0))
            && table[FrameId(1, 1)].content == EventColumn(paragraphs, latlongs)
  {
    var table := FrameContent(paragraphs, latlongs);
    forall id | id in table
      ensures exists x: nat, y: nat :: x < 4 && y < 2 && id == FrameId(x, y)
    {
      TableIdsInGrid(paragraphs, latlongs, id);
    }
    forall x: nat, y: nat | x < 4 && y < 2
      ensures FrameId(x, y) in table
      ensures table[FrameId(x, y)].row == "top" <==> y == 1
      ensures table[FrameId(x, y)].row == "bottom" <==> y == 0
    {
      GridCellInTable(paragraphs, latlongs, x, y);
    }
    GridIds();
  }
}

=== FILE: digest.dfy ===
/** The drawing pass of `digest.py`: `draw_frames` walks the frames in order,
    draws every frame the content table names between a `saveState` and a
    `restoreState`, and turns the top row upside down with the translation
    `main` computes, so the printed sheet folds into a pocketmod booklet. */
module Digest {
  import opened Base
  import opened Text
  import opened Layout
  import opened Canvas
  import opened Content

  /** `row_translations` in `main`: a turn in degrees, then a shift. */
  datatype RowTranslation = RowTranslation(rotation: int, translateX: real, translateY: real)

  /** `main`'s translation for the top row: half a turn, and a shift by the
      page width and by the page height plus one frame height, each corrected
      by the margins. Under it a point `(x, y)` of the top row is drawn at
      `(tx - x, ty - y)`: reflected through the centre of the shifted page. */
  function MainRowTranslation(g: Grid, fh: real): (t: RowTranslation)
    ensures t.rotation % 90 == 0 && (t.rotation / 90) % 4 == 2
    ensures forall p {:trigger Apply(SlotMatrix(Identity, "top", t), p)} ::
              Apply(SlotMatrix(Identity, "top", t), p) == Point(t.translateX - p.x, t.translateY - p.y)
  {
    var t := RowTranslation(
      180,
      g.pageWidth + g.margins.left - g.margins.right,
      g.pageHeight + g.margins.top - g.margins.bottom + fh);
    HalfTurnEverywhere(t);
    t
  }

  /** Half a turn then a shift by `(tx, ty)` is the reflection through
      `(tx / 2, ty / 2)`. */
  lemma HalfTurnEverywhere(t: RowTranslation)
    requires t.rotation % 90 == 0 && (t.rotation / 90) % 4 == 2
    ensures forall p {:trigger Apply(SlotMatrix(Identity, "top", t), p)} ::
              Apply(SlotMatrix(Identity, "top", t), p) == Point(t.translateX - p.x, t.translateY - p.y)
  {
    forall p ensures Apply(SlotMatrix(Identity, "top", t), p) == Point(t.translateX - p.x, t.translateY - p.y) {
      HalfTurnApplies(t, p);
    }
  }

  /** Half a turn then a shift by `(tx, ty)` sends `(x, y)` to `(tx - x, ty - y)`. */
  lemma HalfTurnApplies(t: RowTranslation, p: Point)
    requires t.rotation % 90 == 0 && (t.rotation / 90) % 4 == 2
    ensures Apply(SlotMatrix(Identity, "top", t), p) == Point(t.translateX - p.x, t.translateY - p.y)
  {
    assert TurnThenShift(t, p) == Point(-p.x + t.translateX, -p.y + t.translateY);
    IdentityFixes(TurnThenShift(t, p));
  }

  /** What `Frame.addFromList` is asked to draw: the frame, its page label
      and its flowables. */
  datatype Rendered = Rendered(frame: Frame, page: string, content: seq<Block>)

  function RenderedOf(f: Frame, slot: Slot): Rendered {
    Rendered(f, slot.page, slot.content)
  }

  /** The point `p` of a top-row frame, turned and then shifted by `t`. */
  function TurnThenShift(t: RowTranslation, p: Point): Point
    requires t.rotation % 90 == 0
  {
    var q := Turn((t.rotation / 90) % 4, p);
    Point(q.x + t.translateX, q.y + t.translateY)
  }

  /** The matrix a frame's content is drawn under: the current one, with the
      row translation applied first when the row is `'top'`. A top-row point
      is first turned, then shifted, then mapped by the matrix in force; any
      other row is drawn under the matrix unchanged. */
  function SlotMatrix(ctm: Affine, row: string, t: RowTranslation): (m: Affine)
    requires t.rotation % 90 == 0
    ensures row == "top" ==> forall p :: Apply(m, p) == Apply(ctm, TurnThenShift(t, p))
    ensures row != "top" ==> m == ctm
  {
    if row == "top" then
      var m := Concat(Concat(ctm, Translation(t.translateX, t.translateY)), Rotation(t.rotation / 90));
      forall p ensures Apply(m, p) == Apply(ctm, TurnThenShift(t, p)) {
        TopRowApplies(ctm, t, p);
      }
      m
    else ctm
  }

  /** The save-translate-rotate sequence of `draw_frames` at one point. */
  lemma TopRowApplies(ctm: Affine, t: RowTranslation, p: Point)
    requires t.rotation % 90 == 0
    ensures Apply(Concat(Concat(ctm, Translation(t.translateX, t.translateY)), Rotation(t.rotation / 90)), p)
            == Apply(ctm, TurnThenShift(t, p))
  {
    var tr := Translation(t.translateX, t.translateY);
    var rot := Rotation(t.rotation / 90);
    var q := Apply(rot, p);
    assert q == Turn((t.rotation / 90) % 4, p);
    ConcatApplies(Concat(ctm, tr), rot, p);
    ConcatApplies(ctm, tr, q);
    assert Apply(tr, q) == TurnThenShift(t, p);
  }

  /** One pass of the loop in `draw_frames`. A frame without an entry is
      skipped. Otherwise the state is saved, the top row is translated and
      turned, the content is drawn and the state restored: the matrix and the
      saved stack end as they began and exactly one placement is added. */
  function DrawFrame(s: State<Rendered>, f: Frame, table: map<string, Slot>, t: RowTranslation)
    : (r: State<Rendered>)
    requires t.rotation % 90 == 0
    ensures r.ctm == s.ctm && r.saved == s.saved
    ensures f.id !in table ==> r.drawn == s.drawn
    ensures f.id in table ==>
              && r.drawn == s.drawn + [Placement(RenderedOf(f, table[f.id]), SlotMatrix(s.ctm, table[f.id].row, t))]
  {
    if f.id !in table then s
    else
      var slot := table[f.id];
      var s1 := SaveState(s);
      var s2 := if slot.row == "top" then Rotate(Translate(s1, t.translateX, t.translateY), t.rotation) else s1;
      assert s2.ctm == SlotMatrix(s.ctm, slot.row, t);
      var s3 := Draw(s2, RenderedOf(f, slot));
      RestoreUndoesSave(s, s3);
      RestoreState(s3).value
  }

  /** The frames that have an entry in the table, in frame order. */
  function Populated(frames: seq<Frame>, table: map<string, Slot>): (kept: seq<Frame>)
    ensures |kept| <= |frames|
    ensures forall i :: 0 <= i < |kept| ==> kept[i].id in table && kept[i] in frames
  {
    if frames == [] then []
    else if frames[0].id in table then [frames[0]] + Populated(frames[1..], table)
    else Populated(frames[1..], table)
  }

  lemma {:induction false} PopulatedAll(frames: seq<Frame>, table: map<string, Slot>)
    requires forall i :: 0 <= i < |frames| ==> frames[i].id in table
    ensures Populated(frames, table) == frames
  {
    if frames != [] {
      PopulatedAll(frames[1..], table);
    }
  }

  /** A placement for each frame of `frames` in the table, in that order,
      each drawn under its row's matrix. */
  predicate DrawnInOrder(drawn: seq<Placement<Rendered>>, frames: seq<Frame>, ctm: Affine,
                         table: map<string, Slot>, t: RowTranslation)
    requires t.rotation % 90 == 0
  {
    && |drawn| == |Populated(frames, table)|
    && forall i :: 0 <= i < |drawn| ==>
         var f := Populated(frames, table)[i];
         drawn[i] == Placement(RenderedOf(f, table[f.id]), SlotMatrix(ctm, table[f.id].row, t))
  }

  /** `draw_frames`: the frames are visited in order. */
  function DrawFrames(s: State<Rendered>, frames: seq<Frame>, table: map<string, Slot>, t: RowTranslation)
    : (r: State<Rendered>)
    requires t.rotation % 90 == 0
    ensures r.ctm == s.ctm && r.saved == s.saved
    ensures |s.drawn| <= |r.drawn| && r.drawn[..|s.drawn|] == s.drawn
    ensures DrawnInOrder(r.drawn[|s.drawn|..], frames, s.ctm, table, t)
    decreases |frames|
  {
    if frames == [] then s
    else
      var s' := DrawFrame(s, frames[0], table, t);
      var r := DrawFrames(s', frames[1..], table, t);
      DrawnStep(s, s', r, frames, table, t);
      r
  }

  lemma DrawnStep(s: State<Rendered>, s': State<Rendered>, r: State<Rendered>,
                  frames: seq<Frame>, table: map<string, Slot>, t: RowTranslation)
    requires t.rotation % 90 == 0 && frames != []
    requires s' == DrawFrame(s, frames[0], table, t)
    requires s'.ctm == s.ctm
    requires |s'.drawn| <= |r.drawn| && r.drawn[..|s'.drawn|] == s'.drawn
    requires DrawnInOrder(r.drawn[|s'.drawn|..], frames[1..], s.ctm, table, t)
    ensures |s.drawn| <= |r.drawn| && r.drawn[..|s.drawn|] == s.drawn
    ensures DrawnInOrder(r.drawn[|s.drawn|..], frames, s.ctm, table, t)
  {
    var f := frames[0];
    var tail := r.drawn[|s'.drawn|..];
    if f.id in table {
      assert Populated(frames, table) == [f] + Populated(frames[1..], table);
      assert r.drawn[|s.drawn|..] == [s'.drawn[|s.drawn|]] + tail;
    } else {
      assert Populated(frames, table) == Populated(frames[1..], table);
    }
  }

  /** A point lies in a frame's rectangle, edges included. Unlike `Covers`,
      which leaves out the right and top edges so that neighbouring frames
      do not overlap, both edges count here: the reflection `p -> t - p`
      swaps a rectangle's left edge with its image's right edge, and a
      half-open rectangle would not map onto a half-open one. */
  predicate InRect(f: Frame, p: Point) {
    f.x1 <= p.x <= f.x1 + f.width && f.y1 <= p.y <= f.y1 + f.height
  }

  /** Horizontally, column `x` is sent onto column `columns - 1 - x`. */
  lemma MirrorColumn(g: Grid, fw: real, fh: real, x: nat, y: nat, y': nat, px: real)
    requires FillsPage(g, fw, fh) && x < g.columns
    ensures var f, f' := MakeFrame(g, fw, fh, x, y), MakeFrame(g, fw, fh, g.columns - 1 - x, y');
            var px' := MainRowTranslation(g, fh).translateX - px;
            (f.x1 <= px <= f.x1 + f.width) <==> (f'.x1 <= px' <= f'.x1 + f'.width)
  {
    var f, f' := MakeFrame(g, fw, fh, x, y), MakeFrame(g, fw, fh, g.columns - 1 - x, y');
    var total := Scale(g.columns, fw) + 2.0 * g.margins.left;
    MirrorOffset(g.columns, x, fw);
    assert f'.x1 == total - f.x1 - fw;
    assert MainRowTranslation(g, fh).translateX == total;
    ReflectInterval(f.x1, f'.x1, fw, total, px);
  }

  /** Vertically, row `y` is sent onto row `rows - y`. */
  lemma MirrorRow(g: Grid, fw: real, fh: real, x: nat, x': nat, y: nat, py: real)
    requires FillsPage(g, fw, fh) && y <= g.rows
    ensures var f, f' := MakeFrame(g, fw, fh, x, y), MakeFrame(g, fw, fh, x', g.rows - y);
            var py' := MainRowTranslation(g, fh).translateY - py;
            (f.y1 <= py <= f.y1 + f.height) <==> (f'.y1 <= py' <= f'.y1 + f'.height)
  {
    var f, f' := MakeFrame(g, fw, fh, x, y), MakeFrame(g, fw, fh, x', g.rows - y);
    var total := Scale(g.rows, fh) + fh + 2.0 * g.margins.top;
    ScaleAdd(g.rows - y, y, fh);
    assert f'.y1 == total - f.y1 - fh;
    assert MainRowTranslation(g, fh).translateY == total;
    ReflectInterval(f.y1, f'.y1, fh, total, py);
  }

  /** Reflection `p -> total - p` swaps `[a, a + w]` and `[total - a - w, total - a]`. */
  lemma ReflectInterval(a: real, a': real, w: real, total: real, p: real)
    requires a' == total - a - w
    ensures (a <= p <= a + w) <==> (a' <= total - p <= a' + w)
  {
  }

  /** Band `n - 1 - k` starts where band `k` ends, counted from the far side. */
  lemma MirrorOffset(n: nat, k: nat, size: real)
    requires k < n
    ensures Scale(n - 1 - k, size) == Scale(n, size) - Scale(k, size) - size
  {
    ScaleAdd(n - 1 - k, k + 1, size);
    assert Scale(k + 1, size) == Scale(k, size) + size;
  }

  /** Under `main`'s translation, with the frames filling the page, content
      laid out for the frame in column `x` of row `y` lands on the page in
      the frame of column `columns - 1 - x` and row `rows - y`: the top row of
      a two-row grid is drawn upside down onto itself, columns reversed. */
  lemma TopRowMirrored(g: Grid, fw: real, fh: real, x: nat, y: nat, p: Point)
    requires FillsPage(g, fw, fh)
    requires x < g.columns && y <= g.rows
    ensures var m := SlotMatrix(Identity, "top", MainRowTranslation(g, fh));
            InRect(MakeFrame(g, fw, fh, x, y), p)
            <==> InRect(MakeFrame(g, fw, fh, g.columns - 1 - x, g.rows - y), Apply(m, p))
  {
    HalfTurnApplies(MainRowTranslation(g, fh), p);
    MirrorColumn(g, fw, fh, x, y, g.rows - y, p.x);
    MirrorRow(g, fw, fh, x, g.columns - 1 - x, y, p.y);
  }

  /** The drawing pass `main` runs: all eight frames of the digest grid are
      drawn, in frame order, the bottom row (frames 0-3) under the page's own
      matrix and the top row (frames 4-7) turned; the event column is drawn
      in frame `1-1`; the canvas ends with its matrix and stack as it began. */
  lemma DigestDrawing(paragraphs: seq<Block>, latlongs: seq<Marker>)
    ensures var g := DigestGrid;
            var dims := FrameDimensions(g);
            var frames := SetupFrames(g, dims.0, dims.1);
            var table := FrameContent(paragraphs, latlongs);
            var t := MainRowTranslation(g, dims.1);
            var r := DrawFrames(Fresh(), frames, table, t);
            && r.ctm == Identity && r.saved == []
            && |r.drawn| == |frames| == 8
            && (forall k :: 0 <= k < 8 ==>
                  && frames[k].id in table
                  && r.drawn[k].item == RenderedOf(frames[k], table[frames[k].id])
                  && r.drawn[k].ctm == SlotMatrix(Identity, if k < 4 then "bottom" else "top", t))
            && r.drawn[5].item.frame.id == "1-1"
            && r.drawn[5].item.content == EventColumn(paragraphs, latlongs)
  {
    var g := DigestGrid;
    var dims := FrameDimensions(g);
    var frames := SetupFrames(g, dims.0, dims.1);
    var table := FrameContent(paragraphs, latlongs);
    DigestFrameRows(paragraphs, latlongs);
    DrawnAll(frames, table, MainRowTranslation(g, dims.1));
  }

  /** With every frame in the table, a fresh canvas gets one placement per
      frame, in frame order, and ends with the identity matrix and nothing
      saved. */
  lemma DrawnAll(frames: seq<Frame>, table: map<string, Slot>, t: RowTranslation)
    requires t.rotation % 90 == 0
    requires forall k :: 0 <= k < |frames| ==> frames[k].id in table
    ensures var r := DrawFrames(Fresh(), frames, table, t);
            && r.ctm == Identity && r.saved == [] && |r.drawn| == |frames|
            && forall k :: 0 <= k < |frames| ==>
                 r.drawn[k] == Placement(RenderedOf(frames[k], table[frames[k].id]),
                                         SlotMatrix(Identity, table[frames[k].id].row, t))
  {
    PopulatedAll(frames, table);
    var r := DrawFrames(Fresh(), frames, table, t);
    assert r.drawn[0..] == r.drawn;
  }

  /** The digest's eight frames all have an entry; frames 0-3 are the
      `'bottom'` row and frames 4-7 the `'top'` one; frame 5 is `1-1`. */
  lemma DigestFrameRows(paragraphs: seq<Block>, latlongs: seq<Marker>)
    ensures var g := DigestGrid;
            var dims := FrameDimensions(g);
            var frames := SetupFrames(g, dims.0, dims.1);
            var table := FrameContent(paragraphs, latlongs);
            && |frames| == 8
            && (forall k :: 0 <= k < 8 ==>
                  frames[k].id in table && table[frames[k].id].row == if k < 4 then "bottom" else "top")
            && frames[5].id == "1-1"
  {
    var g := DigestGrid;
    var dims := FrameDimensions(g);
    var frames := SetupFrames(g, dims.0, dims.1);
    var table := FrameContent(paragraphs, latlongs);
    forall k | 0 <= k < 8
      ensures frames[k].id in table && table[frames[k].id].row == if k < 4 then "bottom" else "top"
    {
      FrameAtIndex(g, dims.0, dims.1, k);
      SplitIndex(k, 4, 2);
      GridCellInTable(paragraphs, latlongs, k % 4, k / 4);
    }
    FrameAtIndex(g, dims.0, dims.1, 5);
    GridIds();
  }

  /** On the digest page the top row, frames `0-1` to `3-1`, is printed
      upside down in place, its columns in reverse order. */
  lemma DigestTopRowMirrored(x: nat, p: Point)
    requires x < 4
    ensures var g := DigestGrid;
            var dims := FrameDimensions(g);
            var m := SlotMatrix(Identity, "top", MainRowTranslation(g, dims.1));
            InRect(MakeFrame(g, dims.0, dims.1, x, 1), p)
            <==> InRect(MakeFrame(g, dims.0, dims.1, 3 - x, 1), Apply(m, p))
  {
    var g := DigestGrid;
    var dims := FrameDimensions(g);
    ScaleIsProduct(g.columns, dims.0);
    ScaleIsProduct(g.rows, dims.1);
    assert FillsPage(g, dims.0, dims.1);
    TopRowMirrored(g, dims.0, dims.1, x, 1, p);
  }
}

=== FILE: eventstr.dfy ===
/** `Event.toStr`: `"title: artists at venue"`, with the artists written as
    an English list. The UTF-8 encoding of each part is left out. */
module EventString {
  import opened Text

  /** The artist phrase: nothing, one name, `"A and B"`, or `"A, B and C"`. */
  function ArtistPhrase(artists: seq<string>): string {
    if |artists| == 0 then ""
    else if |artists| == 1 then artists[0]
    else Join(", ", artists[..|artists| - 1]) + " and " + artists[|artists| - 1]
  }

  /** The loop in `toStr`: the first name as is, middle names after `", "`,
      the last after `" and "`. */
  method JoinArtists(artists: seq<string>) returns (sa: string)
    ensures sa == ArtistPhrase(artists)
  {
    var n := |artists|;
    sa := "";
    var i := 0;
    while i < n
      invariant 0 <= i <= n
      invariant i == 0 ==> sa == ""
      invariant 0 < i < n ==> sa == Join(", ", artists[..i])
      invariant i == n && n > 0 ==> sa == ArtistPhrase(artists)
    {
      if i == 0 {
        sa := artists[i];
        assert artists[..1] == [artists[0]];
      } else if i < n - 1 {
        JoinSnoc(", ", artists[..i], artists[i]);
        assert artists[..i] + [artists[i]] == artists[..i + 1];
        sa := sa + ", " + artists[i];
      } else {
        sa := sa + " and " + artists[i];
      }
      i := i + 1;
    }
  }

  /** `toStr`. */
  method ToStr(title: string, artists: seq<string>, venue: string) returns (s: string)
    ensures s == title + ": " + ArtistPhrase(artists) + " at " + venue
  {
    var sa := JoinArtists(artists);
    s := title + ": " + sa + " at " + venue;
  }

  /** The phrase for none, one, two and three artists. */
  lemma ArtistPhraseCases(a: string, b: string, c: string)
    ensures ArtistPhrase([]) == ""
    ensures ArtistPhrase([a]) == a
    ensures ArtistPhrase([a, b]) == a + " and " + b
    ensures ArtistPhrase([a, b, c]) == a + ", " + b + " and " + c
  {
    assert [a, b][..1] == [a];
    assert [a, b, c][..2] == [a, b];
    JoinSnoc(", ", [a], b);
    assert [a] + [b] == [a, b];
  }

  /** Adding an artist to a list of two or more turns the old `" and "`
      into `", "` and puts `" and "` before the new name. */
  lemma ArtistPhraseSnoc(artists: seq<string>, next: string)
    requires |artists| >= 2
    ensures var init, last := artists[..|artists| - 1], artists[|artists| - 1];
            && ArtistPhrase(artists) == Join(", ", init) + " and " + last
            && ArtistPhrase(artists + [next]) == Join(", ", init) + ", " + last + " and " + next
  {
    var init, last := artists[..|artists| - 1], artists[|artists| - 1];
    var s := artists + [next];
    assert s[..|s| - 1] == artists == init + [last];
    assert s[|s| - 1] == next;
    JoinSnoc(", ", init, last);
  }
}

=== FILE: extract.dfy ===
/** `_BaseObject._extract_all`: the text of every element with a given tag
    name, in document order, stopping once the list reaches the limit. XML
    parsing is left out: the input is each element's text, or `None` for an
    element with no text node. */
module Extract {
  import opened Base

  function Min(a: int, b: int): int {
    if a <= b then a else b
  }

  /** The loop compares the list's length with `limit_count` before each
      append; `None` and negative limits never match, so they keep everything. */
  method ExtractAll(texts: seq<Option<string>>, limitCount: Option<int>)
    returns (list: seq<Option<string>>)
    ensures list <= texts
    ensures limitCount.None? ==> list == texts
    ensures limitCount.Some? && limitCount.value < 0 ==> list == texts
    ensures limitCount.Some? && limitCount.value >= 0 ==>
              list == texts[..Min(limitCount.value, |texts|)]
  {
    list := [];
    var i := 0;
    while i < |texts|
      invariant 0 <= i <= |texts| && list == texts[..i]
      invariant limitCount.Some? && limitCount.value >= 0 ==> i <= limitCount.value
    {
      if limitCount == Some(|list|) {
        break;
      }
      list := list + [texts[i]];
      i := i + 1;
    }
  }
}

=== FILE: layout.dfy ===
/** The pocketmod page grid of `digest.py`: the page, less its margins, is cut
    into `columns x rows` equal frames, built row by row, each named `"x-y"`.
    Page coordinates are exact reals; reportlab's floats are not modelled. */
module Layout {
  import opened Base
  import opened Text

  datatype Margins = Margins(top: real, right: real, bottom: real, left: real)

  /** The page and how it is cut: `WIDTH, HEIGHT`, `X_FRAMES`, `Y_FRAMES`,
      `FRAME_PADDING` and `MARGINS`. */
  datatype Grid = Grid(
    pageWidth: real,
    pageHeight: real,
    columns: nat,
    rows: nat,
    padding: real,
    margins: Margins)

  datatype Padding = Padding(top: real, right: real, bottom: real, left: real)

  /** A reportlab `Frame`: lower-left corner, size, id and inner padding. */
  datatype Frame = Frame(
    x1: real,
    y1: real,
    width: real,
    height: real,
    id: string,
    padding: Padding)

  predicate ValidGrid(g: Grid) {
    g.columns > 0 && g.rows > 0
  }

  /** The digest's grid: landscape A4 (297mm x 210mm at 72 points per inch),
      four frames across, two down, 10 points of padding, no margins. */
  const DigestGrid: Grid :=
    Grid(106920.0 / 127.0, 75600.0 / 127.0, 4, 2, 10.0, Margins(0.0, 0.0, 0.0, 0.0))

  /** `calculate_frame_dimensions`: the width and height of one frame. */
  function FrameDimensions(g: Grid): (dims: (real, real))
    requires ValidGrid(g)
    ensures g.columns as real * dims.0 + g.margins.left + g.margins.right == g.pageWidth
    ensures g.rows as real * dims.1 + g.margins.top + g.margins.bottom == g.pageHeight
  {
    ((g.pageWidth - g.margins.left - g.margins.right) / g.columns as real,
     (g.pageHeight - g.margins.top - g.margins.bottom) / g.rows as real)
  }

  /** With no margins the frames exactly divide the page. */
  lemma NoMarginsDividePage(g: Grid)
    requires ValidGrid(g)
    requires g.margins == Margins(0.0, 0.0, 0.0, 0.0)
    ensures g.columns as real * FrameDimensions(g).0 == g.pageWidth
    ensures g.rows as real * FrameDimensions(g).1 == g.pageHeight
  {
  }

  /** The frame id `"%d-%d" % (x, y)`; `ParseFrameId` reads it back. */
  function FrameId(x: nat, y: nat): (id: string)
    ensures ParseFrameId(id) == Some((x, y))
  {
    var a, b := Decimal(x), Decimal(y);
    var s := a + "-" + b;
    assert s == a + ['-'] + b;
    IndexOfAfter(a, b, '-');
    assert s[..|a|] == a;
    assert s[|a| + 1..] == b;
    DecimalRoundTrip(x);
    DecimalRoundTrip(y);
    s
  }

  /** Reads `"x-y"` back into its coordinates. */
  function ParseFrameId(s: string): Option<(nat, nat)> {
    var i := IndexOf(s, '-');
    if 0 < i < |s| - 1 && AllDigits(s[..i]) && AllDigits(s[i + 1..]) then
      Some((DigitsValue(s[..i]), DigitsValue(s[i + 1..])))
    else
      None
  }

  /** Two cells share an id only if they are the same cell. */
  lemma FrameIdInjective(x: nat, y: nat, x': nat, y': nat)
    ensures FrameId(x, y) == FrameId(x', y') <==> x == x' && y == y'
  {
    assert ParseFrameId(FrameId(x, y)) == Some((x, y));
    assert ParseFrameId(FrameId(x', y')) == Some((x', y'));
  }

  /** `k * size` for a whole number `k`, as `k` sizes laid end to end
      (`ScaleIsProduct`). Frame positions are stated with it so that the
      proofs about them stay within linear arithmetic. */
  function Scale(k: nat, size: real): real {
    if k == 0 then 0.0 else Scale(k - 1, size) + size
  }

  lemma {:induction false} ScaleIsProduct(k: nat, size: real)
    ensures Scale(k, size) == k as real * size
  {
    if k > 0 {
      ScaleIsProduct(k - 1, size);
      assert k as real * size == (k - 1) as real * size + size;
    }
  }

  /** `a + b` sizes are `a` sizes followed by `b` sizes. */
  lemma {:induction false} ScaleAdd(a: nat, b: nat, size: real)
    ensures Scale(a + b, size) == Scale(a, size) + Scale(b, size)
  {
    if b > 0 {
      ScaleAdd(a, b - 1, size);
    }
  }

  lemma {:induction false} ScaleNonNegative(k: nat, size: real)
    requires size >= 0.0
    ensures Scale(k, size) >= 0.0
  {
    if k > 0 {
      ScaleNonNegative(k - 1, size);
    }
  }

  /** Band `a` ends no later than band `b > a` begins. */
  lemma {:induction false} ScaleStep(a: nat, b: nat, size: real)
    requires a < b && size >= 0.0
    ensures Scale(a, size) + size <= Scale(b, size)
  {
    if a + 1 < b {
      ScaleStep(a, b - 1, size);
    }
  }

  /** The frame of grid cell `(x, y)`: origin `(x*fw + left, y*fh + top)`, size
      `fw x fh`, the same padding on all four sides. */
  function MakeFrame(g: Grid, fw: real, fh: real, x: nat, y: nat): (f: Frame)
    ensures f.width == fw && f.height == fh && f.id == FrameId(x, y)
    ensures f.padding.top == f.padding.right == f.padding.bottom == f.padding.left == g.padding
  {
    Frame(
      Scale(x, fw) + g.margins.left,
      Scale(y, fh) + g.margins.top,
      fw, fh,
      FrameId(x, y),
      Padding(g.padding, g.padding, g.padding, g.padding))
  }

  /** Frame `(x, y)` has its lower-left corner `x` frame widths and `y`
      frame heights in from the page margins. */
  lemma MakeFrameCorner(g: Grid, fw: real, fh: real, x: nat, y: nat)
    ensures MakeFrame(g, fw, fh, x, y).x1 == x as real * fw + g.margins.left
    ensures MakeFrame(g, fw, fh, x, y).y1 == y as real * fh + g.margins.top
  {
    ScaleIsProduct(x, fw);
    ScaleIsProduct(y, fh);
  }

  /** The inner loop over `x` for one value of `y`. */
  function RowFrames(g: Grid, fw: real, fh: real, y: nat): seq<Frame> {
    seq(g.columns, x requires 0 <= x => MakeFrame(g, fw, fh, x, y))
  }

  lemma MulMonotone(a: nat, b: nat, c: nat)
    requires a <= b
    ensures a * c <= b * c
    decreases b - a
  {
    if a < b {
      MulMonotone(a, b - 1, c);
      assert b * c == (b - 1) * c + c;
    }
  }

  /** Where cell `(x, y)` of a grid `c` frames wide sits in a list built row
      by row. */
  function CellIndex(c: nat, x: nat, y: nat): nat {
    y * c + x
  }

  /** The cell below in the list is a whole row further on. */
  lemma NextRowIndex(c: nat, x: nat, y: nat)
    ensures CellIndex(c, x, y + 1) == CellIndex(c, x, y) + c
  {
    assert (y + 1) * c == y * c + c;
  }

  /** Cell `(x, y)` lies inside the first `n * c` positions when `y < n`. */
  lemma CellIndexBound(c: nat, n: nat, x: nat, y: nat)
    requires x < c && y < n
    ensures CellIndex(c, x, y) < n * c
  {
    MulMonotone(y + 1, n, c);
    assert (y + 1) * c == y * c + c;
  }

  /** The rows `y, y+1, ..., rows-1`, one after the other. */
  function FramesFrom(g: Grid, fw: real, fh: real, y: nat): (frames: seq<Frame>)
    requires y <= g.rows
    ensures |frames| == (g.rows - y) * g.columns
    decreases g.rows - y
  {
    if y == g.rows then []
    else
      assert (g.rows - y) * g.columns == (g.rows - (y + 1)) * g.columns + g.columns;
      RowFrames(g, fw, fh, y) + FramesFrom(g, fw, fh, y + 1)
  }

  /** Row `y` comes first in the frames from row `y` on. */
  lemma RowComesFirst(g: Grid, fw: real, fh: real, y: nat, x: nat)
    requires x < g.columns && y < g.rows
    ensures x < |FramesFrom(g, fw, fh, y)|
    ensures FramesFrom(g, fw, fh, y)[x] == MakeFrame(g, fw, fh, x, y)
  {
    var row := RowFrames(g, fw, fh, y);
    assert FramesFrom(g, fw, fh, y) == row + FramesFrom(g, fw, fh, y + 1);
    assert row[x] == MakeFrame(g, fw, fh, x, y);
  }

  /** The rows after `y` follow one whole row later. */
  lemma LaterRowsFollow(g: Grid, fw: real, fh: real, y: nat, i: nat)
    requires y < g.rows && i < |FramesFrom(g, fw, fh, y + 1)|
    ensures i + g.columns < |FramesFrom(g, fw, fh, y)|
    ensures FramesFrom(g, fw, fh, y)[i + g.columns] == FramesFrom(g, fw, fh, y + 1)[i]
  {
    var row, rest := RowFrames(g, fw, fh, y), FramesFrom(g, fw, fh, y + 1);
    assert FramesFrom(g, fw, fh, y) == row + rest;
    assert |row| == g.columns;
  }

  /** Cell `(x, y')` is `y' - y` whole rows into the frames from row `y` on. */
  lemma {:induction false} FramesFromCell(g: Grid, fw: real, fh: real, y: nat, x: nat, y': nat)
    requires x < g.columns && y <= y' < g.rows
    ensures CellIndex(g.columns, x, y' - y) < |FramesFrom(g, fw, fh, y)|
    ensures FramesFrom(g, fw, fh, y)[CellIndex(g.columns, x, y' - y)] == MakeFrame(g, fw, fh, x, y')
    decreases y' - y
  {
    if y' == y {
      assert CellIndex(g.columns, x, 0) == x;
      RowComesFirst(g, fw, fh, y, x);
    } else {
      var d := y' - (y + 1);
      FramesFromCell(g, fw, fh, y + 1, x, y');
      NextRowIndex(g.columns, x, d);
      assert d + 1 == y' - y;
      LaterRowsFollow(g, fw, fh, y, CellIndex(g.columns, x, d));
    }
  }

  /** `setup_frames`: every cell once, `y` in the outer loop and `x` in the
      inner one, so cell `(x, y)` is at index `y * columns + x`. */
  function SetupFrames(g: Grid, fw: real, fh: real): (frames: seq<Frame>)
    ensures |frames| == g.rows * g.columns
    ensures forall x: nat, y: nat :: x < g.columns && y < g.rows ==>
      CellIndex(g.columns, x, y) < |frames| && frames[CellIndex(g.columns, x, y)] == MakeFrame(g, fw, fh, x, y)
  {
    AllRowsCells(g, fw, fh);
    FramesFrom(g, fw, fh, 0)
  }

  /** All rows from the first: `setup_frames`' list before it is returned. */
  lemma AllRowsCells(g: Grid, fw: real, fh: real)
    ensures |FramesFrom(g, fw, fh, 0)| == g.rows * g.columns
    ensures forall x: nat, y: nat :: x < g.columns && y < g.rows ==>
      CellIndex(g.columns, x, y) < |FramesFrom(g, fw, fh, 0)|
      && FramesFrom(g, fw, fh, 0)[CellIndex(g.columns, x, y)] == MakeFrame(g, fw, fh, x, y)
  {
    assert (g.rows - 0) * g.columns == g.rows * g.columns;
    forall x: nat, y: nat | x < g.columns && y < g.rows
      ensures CellIndex(g.columns, x, y) < |FramesFrom(g, fw, fh, 0)|
      ensures FramesFrom(g, fw, fh, 0)[CellIndex(g.columns, x, y)] == MakeFrame(g, fw, fh, x, y)
    {
      FirstRowsCell(g, fw, fh, x, y);
    }
  }

  lemma FirstRowsCell(g: Grid, fw: real, fh: real, x: nat, y: nat)
    requires x < g.columns && y < g.rows
    ensures CellIndex(g.columns, x, y) < |FramesFrom(g, fw, fh, 0)|
    ensures FramesFrom(g, fw, fh, 0)[CellIndex(g.columns, x, y)] == MakeFrame(g, fw, fh, x, y)
  {
    FramesFromCell(g, fw, fh, 0, x, y);
  }

  /** An index below `n * c` splits into a column below `c` and a row below `n`. */
  lemma SplitIndex(k: nat, c: nat, n: nat)
    requires c > 0 && k < n * c
    ensures k % c < c && k / c < n
    ensures k == (k / c) * c + k % c
  {
  }

  /** Frame `k` is the cell `(k % columns, k / columns)`. */
  lemma FrameAtIndex(g: Grid, fw: real, fh: real, k: nat)
    requires ValidGrid(g)
    requires k < |SetupFrames(g, fw, fh)|
    ensures SetupFrames(g, fw, fh)[k] == MakeFrame(g, fw, fh, k % g.columns, k / g.columns)
  {
    SplitIndex(k, g.columns, g.rows);
    var x, y := k % g.columns, k / g.columns;
    assert SetupFrames(g, fw, fh)[CellIndex(g.columns, x, y)] == MakeFrame(g, fw, fh, x, y);
  }

  /** The frames carry pairwise distinct ids. */
  lemma FrameIdsDistinct(g: Grid, fw: real, fh: real, i: nat, j: nat)
    requires ValidGrid(g)
    requires i < j < |SetupFrames(g, fw, fh)|
    ensures SetupFrames(g, fw, fh)[i].id != SetupFrames(g, fw, fh)[j].id
  {
    FrameAtIndex(g, fw, fh, i);
    FrameAtIndex(g, fw, fh, j);
    SplitIndex(i, g.columns, g.rows);
    SplitIndex(j, g.columns, g.rows);
    FrameIdInjective(i % g.columns, i / g.columns, j % g.columns, j / g.columns);
  }

  /** Frame `(x+1, y)` starts where frame `(x, y)` ends horizontally, on the
      same baseline. */
  lemma ColumnsAdjoin(g: Grid, fw: real, fh: real, x: nat, y: nat)
    requires x + 1 < g.columns && y < g.rows
    ensures var frames := SetupFrames(g, fw, fh);
            var i := CellIndex(g.columns, x, y);
            i + 1 < |frames|
            && frames[i + 1].x1 == frames[i].x1 + frames[i].width
            && frames[i + 1].y1 == frames[i].y1
  {
    var frames := SetupFrames(g, fw, fh);
    var i := CellIndex(g.columns, x, y);
    CellIndexBound(g.columns, g.rows, x + 1, y);
    assert frames[i] == MakeFrame(g, fw, fh, x, y);
    assert frames[CellIndex(g.columns, x + 1, y)] == MakeFrame(g, fw, fh, x + 1, y);
    assert i + 1 == CellIndex(g.columns, x + 1, y);
    assert frames[i + 1] == MakeFrame(g, fw, fh, x + 1, y);
    assert Scale(x + 1, fw) == Scale(x, fw) + fw;
  }

  /** Frame `(x, y+1)` starts where frame `(x, y)` ends vertically, in the
      same column. */
  lemma RowsAdjoin(g: Grid, fw: real, fh: real, x: nat, y: nat)
    requires x < g.columns && y + 1 < g.rows
    ensures var frames, i := SetupFrames(g, fw, fh), CellIndex(g.columns, x, y);
            i + g.columns < |frames|
            && frames[i + g.columns].y1 == frames[i].y1 + frames[i].height
            && frames[i + g.columns].x1 == frames[i].x1
  {
    var frames := SetupFrames(g, fw, fh);
    var i := CellIndex(g.columns, x, y);
    var j := CellIndex(g.columns, x, y + 1);
    CellIndexBound(g.columns, g.rows, x, y + 1);
    NextRowIndex(g.columns, x, y);
    var f, f' := MakeFrame(g, fw, fh, x, y), MakeFrame(g, fw, fh, x, y + 1);
    assert frames[i] == f;
    assert frames[j] == f';
  }

  /** A point lies in a frame's rectangle, left and bottom edges included. */
  predicate Covers(f: Frame, px: real, py: real) {
    f.x1 <= px < f.x1 + f.width && f.y1 <= py < f.y1 + f.height
  }

  /** `p` lies in the `k`-th band of width `size` laid out from `origin`. */
  predicate InBand(k: nat, size: real, origin: real, p: real) {
    Scale(k, size) + origin <= p < Scale(k, size) + size + origin
  }

  lemma CoversCell(g: Grid, fw: real, fh: real, x: nat, y: nat, px: real, py: real)
    ensures Covers(MakeFrame(g, fw, fh, x, y), px, py)
            <==> InBand(x, fw, g.margins.left, px) && InBand(y, fh, g.margins.top, py)
  {
  }

  /** At most one band holds a given point. */
  lemma BandUnique(k: nat, k': nat, size: real, origin: real, p: real)
    requires size > 0.0
    requires InBand(k, size, origin, p) && InBand(k', size, origin, p)
    ensures k == k'
  {
    if k < k' {
      ScaleStep(k, k', size);
    } else if k' < k {
      ScaleStep(k', k, size);
    }
  }

  /** One of the first `n` bands holds every point of `[origin, origin + n*size)`. */
  lemma {:induction false} BandExists(n: nat, size: real, origin: real, p: real) returns (k: nat)
    requires size > 0.0
    requires origin <= p < Scale(n, size) + origin
    ensures k < n && InBand(k, size, origin, p)
  {
    if n == 0 {
      assert false;
    } else if p < Scale(n - 1, size) + origin {
      k := BandExists(n - 1, size, origin, p);
    } else {
      k := n - 1;
    }
  }

  /** Band `k` of `n` bands ends before the opposite margin `hi`. */
  lemma BandInside(k: nat, n: nat, size: real, lo: real, hi: real, total: real, p: real)
    requires size > 0.0 && k < n
    requires Scale(n, size) + lo + hi == total
    requires InBand(k, size, lo, p)
    ensures lo <= p < total - hi
  {
    ScaleNonNegative(k, size);
    ScaleStep(k, n, size);
  }

  /** The page area the frames are meant to fill: the page less its margins. */
  predicate InsideMargins(g: Grid, px: real, py: real) {
    g.margins.left <= px < g.pageWidth - g.margins.right
    && g.margins.top <= py < g.pageHeight - g.margins.bottom
  }

  /** `fw x fh` frames, `columns x rows` of them, fill the page less its margins. */
  predicate FillsPage(g: Grid, fw: real, fh: real) {
    && fw > 0.0 && fh > 0.0
    && Scale(g.columns, fw) + g.margins.left + g.margins.right == g.pageWidth
    && Scale(g.rows, fh) + g.margins.top + g.margins.bottom == g.pageHeight
  }

  lemma CellInside(g: Grid, fw: real, fh: real, x: nat, y: nat, px: real, py: real)
    requires FillsPage(g, fw, fh)
    requires x < g.columns && y < g.rows
    requires Covers(MakeFrame(g, fw, fh, x, y), px, py)
    ensures InsideMargins(g, px, py)
  {
    CoversCell(g, fw, fh, x, y, px, py);
    BandInside(x, g.columns, fw, g.margins.left, g.margins.right, g.pageWidth, px);
    BandInside(y, g.rows, fh, g.margins.top, g.margins.bottom, g.pageHeight, py);
  }

  lemma InsidePointCovered(g: Grid, fw: real, fh: real, px: real, py: real) returns (k: nat)
    requires ValidGrid(g) && FillsPage(g, fw, fh)
    requires InsideMargins(g, px, py)
    ensures k < |SetupFrames(g, fw, fh)| && Covers(SetupFrames(g, fw, fh)[k], px, py)
  {
    var x := BandExists(g.columns, fw, g.margins.left, px);
    var y := BandExists(g.rows, fh, g.margins.top, py);
    CellIndexBound(g.columns, g.rows, x, y);
    k := CellIndex(g.columns, x, y);
    assert SetupFrames(g, fw, fh)[k] == MakeFrame(g, fw, fh, x, y);
    CoversCell(g, fw, fh, x, y, px, py);
  }

  /** Two cells that cover the same point are the same cell. */
  lemma CellCoverUnique(g: Grid, fw: real, fh: real, x: nat, y: nat, x': nat, y': nat, px: real, py: real)
    requires fw > 0.0 && fh > 0.0
    requires Covers(MakeFrame(g, fw, fh, x, y), px, py) && Covers(MakeFrame(g, fw, fh, x', y'), px, py)
    ensures x == x' && y == y'
  {
    CoversCell(g, fw, fh, x, y, px, py);
    CoversCell(g, fw, fh, x', y', px, py);
    BandUnique(x, x', fw, g.margins.left, px);
    BandUnique(y, y', fh, g.margins.top, py);
  }

  /** The frames tile the page less its margins: a point inside that area lies
      in exactly one frame, and a point outside it lies in none. */
  lemma FramesTilePage(g: Grid, px: real, py: real)
    requires ValidGrid(g)
    requires FrameDimensions(g).0 > 0.0 && FrameDimensions(g).1 > 0.0
    ensures var frames := SetupFrames(g, FrameDimensions(g).0, FrameDimensions(g).1);
            (InsideMargins(g, px, py) <==>
               exists k :: 0 <= k < |frames| && Covers(frames[k], px, py))
            && (forall i, j ::
                  (0 <= i < |frames| && 0 <= j < |frames|
                   && Covers(frames[i], px, py) && Covers(frames[j], px, py)) ==> i == j)
  {
    var (fw, fh) := FrameDimensions(g);
    var frames := SetupFrames(g, fw, fh);
    ScaleIsProduct(g.columns, fw);
    ScaleIsProduct(g.rows, fh);
    assert FillsPage(g, fw, fh);
    forall k | 0 <= k < |frames| && Covers(frames[k], px, py)
      ensures InsideMargins(g, px, py)
    {
      FrameAtIndex(g, fw, fh, k);
      SplitIndex(k, g.columns, g.rows);
      CellInside(g, fw, fh, k % g.columns, k / g.columns, px, py);
    }
    if InsideMargins(g, px, py) {
      var k := InsidePointCovered(g, fw, fh, px, py);
    }
    forall i, j | 0 <= i < |frames| && 0 <= j < |frames|
        && Covers(frames[i], px, py) && Covers(frames[j], px, py)
      ensures i == j
    {
      FrameAtIndex(g, fw, fh, i);
      FrameAtIndex(g, fw, fh, j);
      SplitIndex(i, g.columns, g.rows);
      SplitIndex(j, g.columns, g.rows);
      CellCoverUnique(g, fw, fh, i % g.columns, i / g.columns, j % g.columns, j / g.columns, px, py);
    }
  }
}

=== FILE: request.dfy ===
/** How `pylast._Request` builds and signs a web-service call: the parameters
    always carry `api_key` and `method`; a call with a session key is signed
    with `api_sig`, the hash of every `name + value` pair in ascending key
    order followed by the secret. The hash itself is a parameter. */
module Request {
  import opened Base
  import opened Text

  /** A Python 2 dict of strings. `keys` is what `keys()` returns: each key
      once, in an order the program does not choose; `values` is the mapping. */
  datatype Dict = Dict(keys: seq<string>, values: map<string, string>)

  predicate Distinct(s: seq<string>) {
    forall i, j :: 0 <= i < j < |s| ==> s[i] != s[j]
  }

  predicate Valid(d: Dict) {
    && Distinct(d.keys)
    && (forall k :: k in d.values ==> k in d.keys)
    && (forall k :: k in d.keys ==> k in d.values)
  }

  /** `d[k] = v`; a new key joins the key list. */
  function Set(d: Dict, k: string, v: string): (r: Dict)
    requires Valid(d)
    ensures Valid(r) && r.values == d.values[k := v]
  {
    if k in d.values then d.(values := d.values[k := v])
    else Dict(d.keys + [k], d.values[k := v])
  }

  /** Ascending in the order `list.sort()` puts strings in. */
  predicate Sorted(s: seq<string>) {
    forall i, j :: 0 <= i < j < |s| ==> LessEq(s[i], s[j])
  }

  /** Inserts `x` into a sorted list, before the first element not below it. */
  function Insert(x: string, s: seq<string>): (r: seq<string>)
    requires Sorted(s)
    ensures Sorted(r) && multiset(r) == multiset(s) + multiset{x}
  {
    if s == [] then [x]
    else if LessEq(x, s[0]) then
      assert forall j :: 0 <= j < |s| ==> LessEq(x, s[j]) by {
        forall j | 0 <= j < |s| ensures LessEq(x, s[j]) {
          LessEqTransitive(x, s[0], s[j]);
        }
      }
      [x] + s
    else
      var rest := Insert(x, s[1..]);
      assert s == [s[0]] + s[1..];
      InsertAbove(x, s, rest);
      [s[0]] + rest
  }

  lemma InsertAbove(x: string, s: seq<string>, rest: seq<string>)
    requires s != [] && Sorted(s) && !LessEq(x, s[0])
    requires multiset(rest) == multiset(s[1..]) + multiset{x}
    ensures forall j :: 0 <= j < |rest| ==> LessEq(s[0], rest[j])
  {
    LessTotal(x, s[0]);
    forall j | 0 <= j < |rest| ensures LessEq(s[0], rest[j]) {
      assert rest[j] in multiset(rest);
      if rest[j] != x {
        assert rest[j] in multiset(s[1..]);
        var i :| 0 <= i < |s[1..]| && s[1..][i] == rest[j];
        assert s[i + 1] == rest[j];
      }
    }
  }

  /** `keys.sort()`. */
  function Sort(s: seq<string>): (r: seq<string>)
    ensures Sorted(r) && multiset(r) == multiset(s)
  {
    if s == [] then []
    else
      assert s == [s[0]] + s[1..];
      Insert(s[0], Sort(s[1..]))
  }

  /** A sorted list is determined by its elements: two sorted arrangements
      of the same multiset are the same list. */
  lemma {:induction false} SortedUnique(a: seq<string>, b: seq<string>)
    requires Sorted(a) && Sorted(b) && multiset(a) == multiset(b)
    ensures a == b
  {
    if a != [] {
      SortedHeadsEqual(a, b);
      SameTails(a, b);
      SortedUnique(a[1..], b[1..]);
      assert a == [a[0]] + a[1..] && b == [b[0]] + b[1..];
    } else {
      assert |b| == |multiset(b)| == 0;
    }
  }

  /** Both lists start with the least element. */
  lemma SortedHeadsEqual(a: seq<string>, b: seq<string>)
    requires Sorted(a) && Sorted(b) && multiset(a) == multiset(b) && a != []
    ensures b != [] && a[0] == b[0]
  {
    assert a[0] in multiset(b);
    assert b[0] in multiset(a);
    var i :| 0 <= i < |b| && b[i] == a[0];
    var j :| 0 <= j < |a| && a[j] == b[0];
    assert LessEq(b[0], a[0]) by { if i > 0 { assert LessEq(b[0], b[i]); } }
    assert LessEq(a[0], b[0]) by { if j > 0 { assert LessEq(a[0], a[j]); } }
    LessEqAntisymmetric(a[0], b[0]);
  }

  /** Taking the same first element from equal multisets leaves equal ones. */
  lemma SameTails(a: seq<string>, b: seq<string>)
    requires a != [] && b != [] && a[0] == b[0] && multiset(a) == multiset(b)
    ensures multiset(a[1..]) == multiset(b[1..])
  {
    assert a == [a[0]] + a[1..];
    assert b == [b[0]] + b[1..];
    assert multiset(a) == multiset{a[0]} + multiset(a[1..]);
    assert multiset(b) == multiset{b[0]} + multiset(b[1..]);
    assert multiset(a[1..]) == multiset(a) - multiset{a[0]};
    assert multiset(b[1..]) == multiset(b) - multiset{b[0]};
  }

  /** In a list without repeats every element counts once. */
  lemma {:induction false} DistinctCount(s: seq<string>, k: string)
    requires Distinct(s)
    ensures multiset(s)[k] == if k in s then 1 else 0
  {
    if s != [] {
      assert s == [s[0]] + s[1..];
      DistinctCount(s[1..], k);
      if k == s[0] {
        assert k !in s[1..];
      }
    }
  }

  /** Two repeat-free lists of the same elements are arrangements of one
      another. */
  lemma SameElements(a: seq<string>, b: seq<string>)
    requires Distinct(a) && Distinct(b)
    requires forall k :: k in a <==> k in b
    ensures multiset(a) == multiset(b)
  {
    forall k ensures multiset(a)[k] == multiset(b)[k] {
      DistinctCount(a, k);
      DistinctCount(b, k);
    }
  }

  /** `name + value` for each name, in the order given. */
  function Pairs(names: seq<string>, values: map<string, string>): string
    requires forall i :: 0 <= i < |names| ==> names[i] in values
  {
    if names == [] then ""
    else names[0] + values[names[0]] + Pairs(names[1..], values)
  }

  /** The string `_getSignature` hashes: it always ends with the secret, and
      with no parameters it is the secret alone. */
  function SignaturePreimage(params: Dict, secret: string): (r: string)
    requires Valid(params)
    ensures |secret| <= |r| && r[|r| - |secret|..] == secret
    ensures params.keys == [] ==> r == secret
  {
    var names := Sort(params.keys);
    assert forall i :: 0 <= i < |names| ==> names[i] in params.values by {
      forall i | 0 <= i < |names| ensures names[i] in params.values {
        assert names[i] in multiset(params.keys);
      }
    }
    Pairs(names, params.values) + secret
  }

  /** The pre-image is the pairs of the parameters listed in ascending key
      order, each once, followed by the secret. */
  lemma PreimageInKeyOrder(params: Dict, secret: string, names: seq<string>)
    requires Valid(params)
    requires Sorted(names) && Distinct(names)
    requires forall k :: k in names <==> k in params.values
    ensures SignaturePreimage(params, secret) == Pairs(names, params.values) + secret
  {
    SameElements(names, params.keys);
    SortedUnique(Sort(params.keys), names);
  }

  /** The pre-image depends only on the parameters, not on the order in which
      `keys()` happens to list them. */
  lemma PreimageOrderFree(p: Dict, q: Dict, secret: string)
    requires Valid(p) && Valid(q) && p.values == q.values
    ensures SignaturePreimage(p, secret) == SignaturePreimage(q, secret)
  {
    SameElements(p.keys, q.keys);
    SortedUnique(Sort(p.keys), Sort(q.keys));
  }

  /** What can go wrong when signing: no secret (`unicode += None` raises),
      or a pre-image `md5` cannot re-encode (`UnicodeDecodeError`). */
  datatype Error = MissingSecret | NonAsciiPreimage

  /** Every character is below U+0080, so its UTF-8 encoding is one byte
      equal to the character. */
  predicate Ascii(s: string) {
    forall i :: 0 <= i < |s| ==> s[i] < 128 as char
  }

  /** The position of the first byte Python 2's implicit ASCII decoding
      rejects, scanning from the front; `None` when there is none. */
  function FirstNonAscii(s: string): (r: Option<nat>)
    ensures r.None? <==> Ascii(s)
    ensures r.Some? ==> r.value < |s| && s[r.value] >= 128 as char && Ascii(s[..r.value])
  {
    if s == [] then None
    else if s[0] >= 128 as char then Some(0)
    else match FirstNonAscii(s[1..])
      case None => None
      case Some(k) =>
        assert s[..k + 1] == [s[0]] + s[1..][..k];
        Some(k + 1)
  }

  lemma AsciiConcat(a: string, b: string)
    ensures Ascii(a + b) <==> Ascii(a) && Ascii(b)
  {
    if Ascii(a) && Ascii(b) {
      forall i | 0 <= i < |a + b| ensures (a + b)[i] < 128 as char {
        if i >= |a| { assert (a + b)[i] == b[i - |a|]; }
      }
    }
    if Ascii(a + b) {
      forall i | 0 <= i < |a| ensures a[i] < 128 as char {
        assert (a + b)[i] == a[i];
      }
      forall i | 0 <= i < |b| ensures b[i] < 128 as char {
        assert (a + b)[|a| + i] == b[i];
      }
    }
  }

  /** `md5`: `_getSignature` hands it the pre-image already encoded, and
      `text.encode('utf-8')` on those bytes first decodes them as ASCII. A
      pre-image with any character from U+0080 up therefore raises
      `UnicodeDecodeError`; an ASCII one is its own encoding and is hashed
      as is. `digest` stands for `hashlib.md5(...).hexdigest()`. */
  function Md5(text: string, digest: string -> string): (res: Result<string, Error>)
    ensures res.Err? <==> exists i :: 0 <= i < |text| && text[i] >= 128 as char
    ensures res.Err? ==> res.error == NonAsciiPreimage
    ensures res.Ok? ==> res.value == digest(text)
  {
    if FirstNonAscii(text).Some? then Err(NonAsciiPreimage) else Ok(digest(text))
  }

  /** The pre-image is ASCII exactly when every parameter name, every value
      and the secret are. */
  lemma {:induction false} AsciiPreimage(params: Dict, secret: string)
    requires Valid(params)
    ensures Ascii(SignaturePreimage(params, secret))
            <==> Ascii(secret)
                 && (forall k :: k in params.values ==> Ascii(k) && Ascii(params.values[k]))
  {
    var names := Sort(params.keys);
    assert forall i :: 0 <= i < |names| ==> names[i] in params.values by {
      forall i | 0 <= i < |names| ensures names[i] in params.values {
        assert names[i] in multiset(params.keys);
      }
    }
    assert forall k :: k in params.values ==> k in names by {
      forall k | k in params.values ensures k in names {
        assert k in multiset(params.keys);
      }
    }
    AsciiConcat(Pairs(names, params.values), secret);
    AsciiPairs(names, params.values);
  }

  lemma {:induction false} AsciiPairs(names: seq<string>, values: map<string, string>)
    requires forall i :: 0 <= i < |names| ==> names[i] in values
    ensures Ascii(Pairs(names, values))
            <==> forall i :: 0 <= i < |names| ==> Ascii(names[i]) && Ascii(values[names[i]])
  {
    if names != [] {
      AsciiPairs(names[1..], values);
      AsciiConcat(names[0], values[names[0]]);
      AsciiConcat(names[0] + values[names[0]], Pairs(names[1..], values));
      assert forall i :: 1 <= i < |names| ==> names[i] == names[1..][i - 1];
    }
  }

  datatype Req = Req(params: Dict, secret: Option<string>)

  /** `signIt`: a request that already has an `api_sig` keeps it; otherwise
      the `md5` of the pre-image is added under `api_sig`. That fails without
      a secret, and when the pre-image is not ASCII. */
  function SignIt(r: Req, hash: string -> string): (res: Result<Req, Error>)
    requires Valid(r.params)
    ensures "api_sig" in r.params.values ==> res == Ok(r)
    ensures "api_sig" !in r.params.values && r.secret.None? ==> res == Err(MissingSecret)
    ensures "api_sig" !in r.params.values && r.secret.Some? ==>
              var pre := SignaturePreimage(r.params, r.secret.value);
              && (res.Err? <==> !Ascii(pre))
              && (res.Err? ==> res.error == NonAsciiPreimage)
              && (res.Ok? ==>
                    && res.value.secret == r.secret
                    && res.value.params.values == r.params.values["api_sig" := hash(pre)])
    ensures res.Ok? ==> Valid(res.value.params) && "api_sig" in res.value.params.values
  {
    if "api_sig" in r.params.values then Ok(r)
    else match r.secret
      case None => Err(MissingSecret)
      case Some(secret) =>
        match Md5(SignaturePreimage(r.params, secret), hash)
        case Err(e) => Err(e)
        case Ok(sig) => Ok(Req(Set(r.params, "api_sig", sig), r.secret))
  }

  /** A parameter value with an accented letter makes signing fail, even
      with a secret: `"électro"` starts with U+00E9. */
  lemma AccentedValueFails(hash: string -> string)
    ensures var tags := Dict(["tags"], map["tags" := "électro"]);
            SignIt(Req(tags, Some("s")), hash) == Err(NonAsciiPreimage)
  {
    var tags := Dict(["tags"], map["tags" := "électro"]);
    AsciiPreimage(tags, "s");
    assert !Ascii(tags.values["tags"]) by { assert "électro"[0] >= 128 as char; }
  }

  /** Signing a signed request changes nothing. */
  lemma SignItIdempotent(r: Req, hash: string -> string)
    requires Valid(r.params) && SignIt(r, hash).Ok?
    ensures SignIt(SignIt(r, hash).value, hash) == SignIt(r, hash)
  {
  }

  /** Python truthiness of an optional string: present and non-empty. */
  predicate Truthy(s: Option<string>) {
    s.Some? && s.value != ""
  }

  /** `_Request.__init__`: sets `api_key` and `method`, overwriting whatever
      the caller put there, and signs when the session key is truthy. */
  function NewRequest(methodName: string, params: Dict, apiKey: string, secret: Option<string>,
                      sessionKey: Option<string>, hash: string -> string): (res: Result<Req, Error>)
    requires Valid(params)
    ensures res.Err? <==>
              && Truthy(sessionKey) && "api_sig" !in params.values
              && (secret.None?
                  || !Ascii(SignaturePreimage(Set(Set(params, "api_key", apiKey), "method", methodName), secret.value)))
    ensures res.Ok? ==>
              var v := res.value.params.values;
              && Valid(res.value.params) && res.value.secret == secret
              && "api_key" in v && v["api_key"] == apiKey
              && "method" in v && v["method"] == methodName
              && ("api_sig" in v <==> "api_sig" in params.values || Truthy(sessionKey))
              && (forall k :: k in params.values && k != "api_key" && k != "method" ==>
                    k in v && v[k] == params.values[k])
              && (forall k :: k in v ==> k in params.values || k in {"api_key", "method", "api_sig"})
  {
    var p := Set(Set(params, "api_key", apiKey), "method", methodName);
    var r := Req(p, secret);
    if Truthy(sessionKey) then SignIt(r, hash) else Ok(r)
  }

  /** A freshly signed request's `api_sig` is the hash over all its other
      parameters, `api_key` and `method` included. */
  lemma SignatureCoversKeyAndMethod(methodName: string, params: Dict, apiKey: string, secret: string,
                                    sessionKey: Option<string>, hash: string -> string)
    requires Valid(params) && Truthy(sessionKey) && "api_sig" !in params.values
    ensures var res := NewRequest(methodName, params, apiKey, Some(secret), sessionKey, hash);
            var p := Set(Set(params, "api_key", apiKey), "method", methodName);
            && (res.Ok? <==> Ascii(SignaturePreimage(p, secret)))
            && (res.Ok? ==> res.value.params.values["api_sig"] == hash(SignaturePreimage(p, secret)))
            && p.values["api_key"] == apiKey && p.values["method"] == methodName
  {
  }
}

=== FILE: share.dfy ===
/** The recipient batching that `Track.share`, `Artist.share` and
    `Event.share` share: Last.fm takes at most ten recipients per call, so
    while more than ten remain the first nine are sent on their own. Sending
    the request is left out; the batches are what each call would send. */
module Share {
  import opened Base
  import opened Text

  /** A recipient: a `User` object, sent by name, or a user name or email. */
  datatype Recipient = UserRef(name: string) | Plain(text: string)

  function RecipientName(r: Recipient): string {
    match r
    case UserRef(name) => name
    case Plain(text) => text
  }

  /** The batches one after the other. */
  function Flatten<T>(batches: seq<seq<T>>): seq<T>
    decreases |batches|
  {
    if batches == [] then [] else Flatten(batches[..|batches| - 1]) + batches[|batches| - 1]
  }

  /** The `while len(users) > 10` loop and the final call: every batch but
      the last has nine recipients, the last has at most ten, and together
      they are the original list in order. A batch of nine is split off only
      while more than ten remain, so a last batch after others holds at
      least two. One call is made even for an empty list. */
  method Batches<T>(users: seq<T>) returns (batches: seq<seq<T>>)
    ensures |batches| >= 1 && Flatten(batches) == users
    ensures forall i :: 0 <= i < |batches| - 1 ==> |batches[i]| == 9
    ensures |batches[|batches| - 1]| <= 10
    ensures |batches| > 1 ==> |batches[|batches| - 1]| >= 2
    ensures users != [] ==> forall i :: 0 <= i < |batches| ==> batches[i] != []
    ensures |batches| == 1 <==> |users| <= 10
  {
    batches := [];
    var rest := users;
    while |rest| > 10
      invariant Flatten(batches) + rest == users
      invariant forall i :: 0 <= i < |batches| ==> |batches[i]| == 9
      invariant batches == [] ==> rest == users
      invariant batches != [] ==> |rest| > 1 && |users| > 10
    {
      var head, tail := rest[..9], rest[9..];
      assert rest == head + tail;
      FlattenSnoc(batches, head);
      batches := batches + [head];
      rest := tail;
    }
    FlattenSnoc(batches, rest);
    batches := batches + [rest];
  }

  lemma FlattenSnoc<T>(batches: seq<seq<T>>, last: seq<T>)
    ensures Flatten(batches + [last]) == Flatten(batches) + last
  {
    assert (batches + [last])[..|batches|] == batches;
  }

  /** The `recipient` parameter: the names joined by commas. */
  function Recipients(batch: seq<Recipient>): string {
    Join([','], seq(|batch|, i requires 0 <= i < |batch| => RecipientName(batch[i])))
  }

  /** The server gets each name back by splitting at the commas, provided
      no name contains one. */
  lemma RecipientsRoundTrip(batch: seq<Recipient>)
    requires batch != []
    requires forall i, j :: 0 <= i < |batch| && 0 <= j < |RecipientName(batch[i])| ==>
               RecipientName(batch[i])[j] != ','
    ensures var names := Split(Recipients(batch), ',');
            |names| == |batch| && forall i :: 0 <= i < |batch| ==> names[i] == RecipientName(batch[i])
  {
    var names := seq(|batch|, i requires 0 <= i < |batch| => RecipientName(batch[i]));
    SplitJoin(names, ',');
  }

  /** The parameters of one share call: the object's own parameters, the
      recipients, and the message when it is truthy. */
  function ShareParams(own: map<string, string>, batch: seq<Recipient>, message: Option<string>)
    : (params: map<string, string>)
    ensures "recipient" in params && params["recipient"] == Recipients(batch)
    ensures message.Some? && message.value != "" ==> "message" in params && params["message"] == message.value
    ensures forall k :: k in own && k != "recipient" && (k != "message" || message.None? || message.value == "") ==>
              k in params && params[k] == own[k]
    ensures forall k :: k in params ==> k in own || k == "recipient" || k == "message"
    ensures "message" in params && "message" !in own ==> message.Some? && message.value != ""
  {
    var p := own["recipient" := Recipients(batch)];
    match message
    case Some(m) => if m != "" then p["message" := m] else p
    case None => p
  }
}

=== FILE: tags.dfy ===
/** The tag diff in `_Taggable.setTags`: which of the tags on the server to
    remove and which of the requested tags to add, comparing tag names
    without regard to case. The remove and add calls themselves are left out. */
module Tags {
  import opened Base
  import opened Text

  /** The lower-cased names, in order (`c_old_tags`, `c_new_tags`). */
  function LowerAll(tags: seq<string>): (lowered: seq<string>)
    ensures |lowered| == |tags|
    ensures forall i :: 0 <= i < |tags| ==> lowered[i] == Lower(tags[i])
  {
    seq(|tags|, i requires 0 <= i < |tags| => Lower(tags[i]))
  }

  /** The tags whose lower-case form is not among the lower-cased `others`,
      in their original order and spelling. */
  function Absent(tags: seq<string>, others: seq<string>): seq<string>
    decreases |tags|
  {
    if tags == [] then []
    else
      var last := tags[|tags| - 1];
      Absent(tags[..|tags| - 1], others) + (if Lower(last) in LowerAll(others) then [] else [last])
  }

  /** The diff loops: `to_remove` and `to_add`. */
  method TagDiff(oldTags: seq<string>, newTags: seq<string>)
    returns (toRemove: seq<string>, toAdd: seq<string>)
    ensures toRemove == Absent(oldTags, newTags)
    ensures toAdd == Absent(newTags, oldTags)
  {
    var cOld := LowerAll(oldTags);
    var cNew := LowerAll(newTags);
    toRemove := [];
    var i := 0;
    while i < |oldTags|
      invariant 0 <= i <= |oldTags| && toRemove == Absent(oldTags[..i], newTags)
    {
      assert oldTags[..i + 1][..i] == oldTags[..i];
      if cOld[i] !in cNew {
        toRemove := toRemove + [oldTags[i]];
      }
      i := i + 1;
    }
    assert oldTags[..i] == oldTags;
    toAdd := [];
    i := 0;
    while i < |newTags|
      invariant 0 <= i <= |newTags| && toAdd == Absent(newTags[..i], oldTags)
    {
      assert newTags[..i + 1][..i] == newTags[..i];
      if cNew[i] !in cOld {
        toAdd := toAdd + [newTags[i]];
      }
      i := i + 1;
    }
    assert newTags[..i] == newTags;
  }

  /** `setTags`: nothing happens when the server returned no tag list;
      otherwise the two lists of the diff. */
  method SetTags(onServer: Option<seq<string>>, tags: seq<string>)
    returns (diff: Option<(seq<string>, seq<string>)>)
    ensures onServer.None? <==> diff.None?
    ensures diff.Some? ==>
              diff.value == (Absent(onServer.value, tags), Absent(tags, onServer.value))
  {
    if onServer.None? {
      return None;
    }
    var toRemove, toAdd := TagDiff(onServer.value, tags);
    diff := Some((toRemove, toAdd));
  }

  /** With no tags on the server, every requested tag is added, in order,
      and nothing is removed. */
  lemma {:induction false} EmptyServerAddsAll(tags: seq<string>)
    ensures Absent([], tags) == [] && Absent(tags, []) == tags
    decreases |tags|
  {
    if tags != [] {
      var init := tags[..|tags| - 1];
      EmptyServerAddsAll(init);
      assert tags == init + [tags[|tags| - 1]];
    }
  }

  /** A tag is in the diff exactly when its side has it and the other side
      has no tag equal to it ignoring case. */
  lemma {:induction false} AbsentMembers(tags: seq<string>, others: seq<string>, t: string)
    ensures t in Absent(tags, others) <==> t in tags && Lower(t) !in LowerAll(others)
    decreases |tags|
  {
    if tags != [] {
      var init := tags[..|tags| - 1];
      AbsentMembers(init, others, t);
      assert tags == init + [tags[|tags| - 1]];
    }
  }

  /** Keeping order: the diff is the side's tags with some left out. */
  lemma {:induction false} AbsentIsFiltered(tags: seq<string>, others: seq<string>)
    ensures |Absent(tags, others)| <= |tags|
    ensures Absent(tags, others) == [] <==> forall i :: 0 <= i < |tags| ==> Lower(tags[i]) in LowerAll(others)
    decreases |tags|
  {
    if tags != [] {
      var init := tags[..|tags| - 1];
      AbsentIsFiltered(init, others);
      assert forall i :: 0 <= i < |init| ==> init[i] == tags[i];
    }
  }

  /** A tag both sides have, ignoring case, is neither removed nor added. */
  lemma SharedTagUntouched(oldTags: seq<string>, newTags: seq<string>, t: string, u: string)
    requires t in oldTags && u in newTags && Lower(t) == Lower(u)
    ensures t !in Absent(oldTags, newTags) && u !in Absent(newTags, oldTags)
  {
    AbsentMembers(oldTags, newTags, t);
    AbsentMembers(newTags, oldTags, u);
    var i :| 0 <= i < |newTags| && newTags[i] == u;
    var j :| 0 <= j < |oldTags| && oldTags[j] == t;
    assert LowerAll(newTags)[i] == Lower(t);
    assert LowerAll(oldTags)[j] == Lower(u);
  }

  /** Setting the tags already on the server, in any spelling of case,
      changes nothing. */
  lemma ResetIsEmpty(tags: seq<string>)
    ensures Absent(tags, tags) == []
  {
    AbsentIsFiltered(tags, tags);
    assert forall i :: 0 <= i < |tags| ==> LowerAll(tags)[i] == Lower(tags[i]);
  }

  /** Both lists are empty exactly when the two sides hold the same tags
      ignoring case. */
  lemma EmptyDiffIffSameTags(oldTags: seq<string>, newTags: seq<string>)
    ensures (Absent(oldTags, newTags) == [] && Absent(newTags, oldTags) == [])
            <==> (forall s :: s in LowerAll(oldTags) <==> s in LowerAll(newTags))
  {
    AbsentIsFiltered(oldTags, newTags);
    AbsentIsFiltered(newTags, oldTags);
    var lo, ln := LowerAll(oldTags), LowerAll(newTags);
    if forall s :: s in lo <==> s in ln {
      forall i | 0 <= i < |oldTags| ensures Lower(oldTags[i]) in ln {
        assert lo[i] == Lower(oldTags[i]);
      }
      forall i | 0 <= i < |newTags| ensures Lower(newTags[i]) in lo {
        assert ln[i] == Lower(newTags[i]);
      }
    }
  }
}

=== FILE: text.dfy ===
/** String helpers the rest of the model shares: Python's `"%d"` formatting
    and its inverse, `str.join`, ASCII `lower()`, and the code-point order
    that `list.sort()` uses on strings. */
module Text {

  predicate IsDigit(c: char) {
    '0' <= c <= '9'
  }

  predicate AllDigits(s: string) {
    forall i :: 0 <= i < |s| ==> IsDigit(s[i])
  }

  function DigitChar(d: nat): (c: char)
    requires d < 10
    ensures IsDigit(c)
    ensures c as int - '0' as int == d
  {
    ('0' as int + d) as char
  }

  /** `"%d" % n` for a non-negative `n`: decimal digits without a leading zero. */
  function Decimal(n: nat): (s: string)
    ensures |s| > 0 && AllDigits(s)
    ensures |s| > 1 ==> s[0] != '0'
    decreases n
  {
    if n < 10 then [DigitChar(n)] else Decimal(n / 10) + [DigitChar(n % 10)]
  }

  /** The value of a string of decimal digits, read most significant first. */
  function DigitsValue(s: string): nat
    requires AllDigits(s)
  {
    if s == [] then 0 else DigitsValue(s[..|s| - 1]) * 10 + (s[|s| - 1] as int - '0' as int)
  }

  /** Reading back what `Decimal` wrote gives the number again. */
  lemma {:induction false} DecimalRoundTrip(n: nat)
    ensures DigitsValue(Decimal(n)) == n
  {
    if n >= 10 {
      var s := Decimal(n);
      assert s[..|s| - 1] == Decimal(n / 10);
      DecimalRoundTrip(n / 10);
    }
  }

  /** `sep.join(parts)`. */
  function Join(sep: string, parts: seq<string>): string
    decreases |parts|
  {
    if |parts| == 0 then ""
    else if |parts| == 1 then parts[0]
    else parts[0] + sep + Join(sep, parts[1..])
  }

  /** Joining one more part adds one separator and the part at the end. */
  lemma {:induction false} JoinSnoc(sep: string, parts: seq<string>, last: string)
    requires |parts| > 0
    ensures Join(sep, parts + [last]) == Join(sep, parts) + sep + last
    decreases |parts|
  {
    if |parts| == 1 {
      assert parts + [last] == [parts[0], last];
      assert (parts + [last])[1..] == [last];
    } else {
      assert (parts + [last])[1..] == parts[1..] + [last];
      JoinSnoc(sep, parts[1..], last);
    }
  }

  /** `unicode.lower()` restricted to ASCII letters. */
  function LowerChar(c: char): char {
    if 'A' <= c <= 'Z' then (c as int + 32) as char else c
  }

  function Lower(s: string): string {
    seq(|s|, i requires 0 <= i < |s| => LowerChar(s[i]))
  }

  /** Strict code-point lexicographic order: a proper prefix sorts first. */
  predicate Less(a: string, b: string)
    decreases |a|
  {
    if |a| == 0 then |b| > 0
    else |b| > 0 && (a[0] < b[0] || (a[0] == b[0] && Less(a[1..], b[1..])))
  }

  predicate LessEq(a: string, b: string) {
    a == b || Less(a, b)
  }

  lemma {:induction false} LessIrreflexive(a: string)
    ensures !Less(a, a)
    decreases |a|
  {
    if |a| > 0 {
      LessIrreflexive(a[1..]);
    }
  }

  lemma {:induction false} LessAsymmetric(a: string, b: string)
    ensures !(Less(a, b) && Less(b, a))
    decreases |a|
  {
    if |a| > 0 && |b| > 0 && a[0] == b[0] {
      LessAsymmetric(a[1..], b[1..]);
    }
  }

  lemma {:induction false} LessTransitive(a: string, b: string, c: string)
    requires Less(a, b) && Less(b, c)
    ensures Less(a, c)
    decreases |a|
  {
    if |a| > 0 && a[0] == b[0] && b[0] == c[0] {
      LessTransitive(a[1..], b[1..], c[1..]);
    }
  }

  lemma {:induction false} LessTotal(a: string, b: string)
    ensures a == b || Less(a, b) || Less(b, a)
    decreases |a|
  {
    if |a| > 0 && |b| > 0 && a[0] == b[0] {
      LessTotal(a[1..], b[1..]);
      if a[1..] == b[1..] {
        assert a == [a[0]] + a[1..] && b == [b[0]] + b[1..];
      }
    }
  }

  lemma LessEqTransitive(a: string, b: string, c: string)
    requires LessEq(a, b) && LessEq(b, c)
    ensures LessEq(a, c)
  {
    if a != b && b != c {
      LessTransitive(a, b, c);
    }
  }

  lemma LessEqAntisymmetric(a: string, b: string)
    requires LessEq(a, b) && LessEq(b, a)
    ensures a == b
  {
    LessAsymmetric(a, b);
  }

  /** The first position of `c` in `s`, or `|s|` when it does not occur. */
  function IndexOf(s: string, c: char): (i: nat)
    ensures i <= |s|
    ensures i < |s| ==> s[i] == c
    ensures forall j :: 0 <= j < i ==> s[j] != c
  {
    if s == [] then 0 else if s[0] == c then 0 else 1 + IndexOf(s[1..], c)
  }

  /** The first `c` in `a + [c] + b` is the one after `a` when `a` has none. */
  lemma {:induction false} IndexOfAfter(a: string, b: string, c: char)
    requires forall j :: 0 <= j < |a| ==> a[j] != c
    ensures IndexOf(a + [c] + b, c) == |a|
  {
    if a != [] {
      assert (a + [c] + b)[1..] == a[1..] + [c] + b;
      IndexOfAfter(a[1..], b, c);
    }
  }

  /** `s.split(c)`: the pieces between occurrences of `c`. */
  function Split(s: string, c: char): (parts: seq<string>)
    ensures |parts| > 0
    decreases |s|
  {
    var i := IndexOf(s, c);
    if i == |s| then [s] else [s[..i]] + Split(s[i + 1..], c)
  }

  /** Splitting at `c` undoes joining with `c` when no part contains `c`. */
  lemma {:induction false} SplitJoin(parts: seq<string>, c: char)
    requires |parts| > 0
    requires forall k, j :: 0 <= k < |parts| && 0 <= j < |parts[k]| ==> parts[k][j] != c
    ensures Split(Join([c], parts), c) == parts
    decreases |parts|
  {
    var first := parts[0];
    assert forall j :: 0 <= j < |first| ==> first[j] != c;
    if |parts| == 1 {
      assert IndexOf(first, c) == |first|;
    } else {
      var rest := Join([c], parts[1..]);
      assert Join([c], parts) == first + [c] + rest;
      SplitFirst(first, rest, c);
      SplitJoin(parts[1..], c);
    }
  }

  /** The first piece of `first + [c] + rest` is `first` when it has no `c`. */
  lemma SplitFirst(first: string, rest: string, c: char)
    requires forall j :: 0 <= j < |first| ==> first[j] != c
    ensures Split(first + [c] + rest, c) == [first] + Split(rest, c)
  {
    var s := first + [c] + rest;
    IndexOfAfter(first, rest, c);
    assert s[..|first|] == first;
    assert s[|first| + 1..] == rest;
  }
}

=== FILE: user.dfy ===
/** `AuthenticatedUser.getGender` and `isSubscriber`: the one-letter codes of
    the user info mapped to values, anything unrecognised to `None`. Fetching
    the info is left out: the input is the field, or `None` when missing. */
module UserInfo {
  import opened Base

  const UserMale: string := "Male"
  const UserFemale: string := "Female"

  function Gender(value: Option<string>): (g: Option<string>)
    ensures g == Some(UserMale) <==> value == Some("m")
    ensures g == Some(UserFemale) <==> value == Some("f")
    ensures g.None? <==> value != Some("m") && value != Some("f")
  {
    if value == Some("m") then Some(UserMale)
    else if value == Some("f") then Some(UserFemale)
    else None
  }

  /** The code Last.fm uses for each gender value. */
  function GenderCode(g: string): Option<string> {
    if g == UserMale then Some("m") else if g == UserFemale then Some("f") else None
  }

  /** `Gender` and `GenderCode` are inverse: a gender is reported exactly
      for its code. */
  lemma GenderRoundTrip(value: Option<string>, g: string)
    ensures Gender(value) == Some(g) <==> GenderCode(g).Some? && value == GenderCode(g)
  {
  }

  function Subscriber(value: Option<string>): (b: Option<bool>)
    ensures b == Some(true) <==> value == Some("1")
    ensures b == Some(false) <==> value == Some("0")
    ensures b.None? <==> value != Some("1") && value != Some("0")
  {
    if value == Some("1") then Some(true)
    else if value == Some("0") then Some(false)
    else None
  }

  function SubscriberCode(b: bool): string {
    if b then "1" else "0"
  }

  lemma SubscriberRoundTrip(value: Option<string>, b: bool)
    ensures Subscriber(value) == Some(b) <==> value == Some(SubscriberCode(b))
  {
  }
}
